=== FILE: README.md ===
# xUtils request engine, bitmap downloader and soft-reference cache, in Dafny

This project models three parts of the xUtils Android library and its demo.

- **HttpHandler**: the engine behind one HTTP request. The model covers:
  - the retry loop `sendRequest`, with its response cache, resume header, exception classification and retry handler;
  - `handleResponse`, which dispatches on the status code, reads the entity, stores to the cache and follows redirects;
  - `doInBackground`, the entry point;
  - the observer side: `onProgressUpdate`, the progress throttle `updateProgress`, and `cancel`.
- **DefaultDownloader.downloadToStream**: picks the source of a bitmap URI, computes the expiry time stamp, and copies the stream in chunks of at most 4096 bytes. It gives up with -1 on cancellation.
- **EmployleeCache**: a singleton table from employee id to soft reference. Entries whose reference the collector has queued are dropped before each insertion.

Files:

- `http_types.dfy` (module `HttpTypes`): the task state and its ints, the failure categories, the exceptions a pass can raise and their classification, requests and responses, the status dispatch, and the text of the `RANGE: bytes=L-` header with its round trip.
- `http_events.dfy` (module `HttpEvents`): the events the worker publishes, the state and callback each one leads to (`Next`, `Notified`), the replay of an event sequence, and the update throttle.
- `http_handler.dfy` (module `Http`): the cache, the `HttpHandler` class with its fields and methods, the retry discipline that every run obeys (`Disciplined`), and what a whole run of sendRequest does, round by round, as a relation on the request, the fields, the cache and the attempts (`Passes`, with `Retries` for a round that goes again and `Settles` for the round that ends the run).
- `default_downloader.dfy` (module `BitmapDownload`): source selection, the expiry rule, and the copy loop.
- `employee_cache.dfy` (module `SoftReferenceDemo`): the `Employee`, `EmployeeRef`, `EmployeeCache` and singleton-holder classes, and the collector's steps.

Everything outside the library is an input:

- **Transport.** For each pass of the retry loop, an `Attempt` gives:
  - the length of the partial download file;
  - what the two `isCancelled()` checks see;
  - what `client.execute` did: it threw, or it returned a possibly null response.
- **Handlers.** The retry handler and the redirect handler are functions fixed when the handler is built.
- **Logging.** The ghost field `calls` logs every `execute` and every retry-handler query.
- **Threads.** The two threads of the AsyncTask run one after the other:
  - the worker appends its `publishProgress` calls to `published`;
  - `OnProgressUpdate` consumes one event at a time;
  - the callback calls go to `delivered`.
- **Downloader environment.** The downloader takes:
  - `open`, the result of opening each kind of source;
  - `live(k)`, the outcome of the k-th "cancelled or container collected" check;
  - the clock `now`.

Behaviour of the code that the model keeps:

- `cancel()` calls `onCancelled` on every call. There is no once-only guard (`Http.CancelTwice`).

- In `doInBackground`, the save path goes through `String.valueOf`, so a null path becomes the text "null". As a result `isDownloadingFile` is true whenever download arguments are given.
- The cache key is the `requestUrl` recorded in `doInBackground`, also for a request reached through a redirect (`Http.HttpHandler.DoInBackground`, `Http.StoredAfter`).
- An `HttpException` raised by `handleResponse` is wrapped again as OTHER_EXCEPTION by the enclosing `sendRequest`. This includes one thrown by a nested `sendRequest` after a redirect.
- `cleanCache` removes table entries by key. A stale reference that is queued late therefore removes a newer, live entry stored under the same id (`SoftReferenceDemo.StaleReferenceEvictsLiveEntry`).

## Model

| member | source | states |
|---|---|---|
| HttpTypes.StateValue | XutilsDemo_SVN/xutilslibrary/src/main/java/com/lidroid/xutils/http/HttpHandler.java:354-383 | every state's value() lies in 0..5 |
| HttpTypes.StateOf | XutilsDemo_SVN/xutilslibrary/src/main/java/com/lidroid/xutils/http/HttpHandler.java:362-379 | valueOf maps each of 0..5 to the state whose value() it is, and every other int to FAILURE |
| HttpTypes.StateRoundTrip | XutilsDemo_SVN/xutilslibrary/src/main/java/com/lidroid/xutils/http/HttpHandler.java:362-383 | valueOf(value(s)) == s for every state |
| HttpTypes.Classify | XutilsDemo_SVN/xutilslibrary/src/main/java/com/lidroid/xutils/http/HttpHandler.java:146-183 | unknown host and other IO errors are IP_CONNECT_ERROR, both timeouts CONNECT_TIME_OUT, the rest OTHER_EXCEPTION (each an iff), and READ_DATA_ERROR never occurs |
| HttpTypes.Dispatch | XutilsDemo_SVN/xutilslibrary/src/main/java/com/lidroid/xutils/http/HttpHandler.java:275-307 | below 300 is success, 301/302 redirect, 416 range-complete, every other code a status error, each as an iff |
| HttpTypes.DecimalString | XutilsDemo_SVN/xutilslibrary/src/main/java/com/lidroid/xutils/http/HttpHandler.java:121 | the decimal text of a file length is a non-empty run of digits |
| HttpTypes.DecimalRoundTrip | XutilsDemo_SVN/xutilslibrary/src/main/java/com/lidroid/xutils/http/HttpHandler.java:121 | the digits written for a length read back as that length |
| HttpTypes.RangeHeaderRoundTrip | XutilsDemo_SVN/xutilslibrary/src/main/java/com/lidroid/xutils/http/HttpHandler.java:121 | the header value "bytes=L-" parses back to exactly L |
| HttpTypes.WithResume | XutilsDemo_SVN/xutilslibrary/src/main/java/com/lidroid/xutils/http/HttpHandler.java:115-123 | with autoResume, a download and a file length L > 0, the RANGE header names offset L; otherwise the request is unchanged; method and URL never change |
| HttpTypes.WithResumeKeepsOtherHeaders | XutilsDemo_SVN/xutilslibrary/src/main/java/com/lidroid/xutils/http/HttpHandler.java:121 | setting the resume header leaves every other header as it was |
| HttpEvents.Next | XutilsDemo_SVN/xutilslibrary/src/main/java/com/lidroid/xutils/http/HttpHandler.java:234-263 | once CANCELLED or without a callback nothing moves; START gives STARTED; LOADING, FAILURE and SUCCESS set their state only with 3, 3 and 2 values; other codes change nothing |
| HttpEvents.Notified | XutilsDemo_SVN/xutilslibrary/src/main/java/com/lidroid/xutils/http/HttpHandler.java:236-259 | at most one callback per event, none when cancelled, without a callback or with a wrong value count, and for each well-formed event the matching onStart/onLoading/onFailure/onSuccess with its values |
| HttpEvents.CancelledAbsorbs | XutilsDemo_SVN/xutilslibrary/src/main/java/com/lidroid/xutils/http/HttpHandler.java:236 | after CANCELLED no sequence of events moves the state |
| HttpEvents.NoCallbackNoMove | XutilsDemo_SVN/xutilslibrary/src/main/java/com/lidroid/xutils/http/HttpHandler.java:236 | without a callback no sequence of events moves the state |
| HttpEvents.ReplayAppend | XutilsDemo_SVN/xutilslibrary/src/main/java/com/lidroid/xutils/http/HttpHandler.java:234-263 | handling a + b is handling a, then b |
| HttpEvents.LoadingKeepsRunning | XutilsDemo_SVN/xutilslibrary/src/main/java/com/lidroid/xutils/http/HttpHandler.java:242-249 | loading samples keep a started task in STARTED or LOADING, and at least one sample leaves it in LOADING |
| HttpEvents.RunReachesOutcome | XutilsDemo_SVN/xutilslibrary/src/main/java/com/lidroid/xutils/http/HttpHandler.java:211-259 | START, any loading samples, then SUCCESS or FAILURE drive an uncancelled task to that terminal state |
| HttpEvents.Emitted | XutilsDemo_SVN/xutilslibrary/src/main/java/com/lidroid/xutils/http/HttpHandler.java:343-348 | a run of unforced updates publishes at most once per update |
| HttpEvents.EmittedRespectsRate | XutilsDemo_SVN/xutilslibrary/src/main/java/com/lidroid/xutils/http/HttpHandler.java:343-348 | the first unforced publication comes at least `rate` after lastUpdateTime, and each later one at least `rate` after the one before |
| HttpEvents.EmittedFromTimes | XutilsDemo_SVN/xutilslibrary/src/main/java/com/lidroid/xutils/http/HttpHandler.java:343-348 | every publication time is one of the update times |
| HttpEvents.EmittedSnoc | XutilsDemo_SVN/xutilslibrary/src/main/java/com/lidroid/xutils/http/HttpHandler.java:343-348 | a run of unforced updates is its single steps: one more update publishes exactly when it is due after the last publication so far |
| Http.StringValueOf | XutilsDemo_SVN/xutilslibrary/src/main/java/com/lidroid/xutils/http/HttpHandler.java:196-197 | String.valueOf gives the text of a string and "null" for null, never a null reference |
| Http.IsRedirectRequested | XutilsDemo_SVN/xutilslibrary/src/main/java/com/lidroid/xutils/http/HttpHandler.java:388-392 | the transport is never asked to follow a redirect itself |
| Http.GetLocationUri | XutilsDemo_SVN/xutilslibrary/src/main/java/com/lidroid/xutils/http/HttpHandler.java:394-397 | the transport is given no redirect location |
| Http.HttpCache.Put | XutilsDemo_SVN/xutilslibrary/src/main/java/com/lidroid/xutils/http/HttpHandler.java:289 | a store maps the URL to the text and changes no other entry |
| Http.DisciplinedCount | XutilsDemo_SVN/xutilslibrary/src/main/java/com/lidroid/xutils/http/HttpHandler.java:146-187 | over a run, retriedCount grows by exactly the number of retry-handler queries: it is never reset, including across redirects |
| Http.DisciplinedQueries | XutilsDemo_SVN/xutilslibrary/src/main/java/com/lidroid/xutils/http/HttpHandler.java:146-183 | each query carries a count within the run's range, strictly increasing from one query to the next; it concerns a retryable exception and records the handler's own answer |
| Http.RefusalIsLast | XutilsDemo_SVN/xutilslibrary/src/main/java/com/lidroid/xutils/http/HttpHandler.java:184-187 | once the handler says no, no further execute or query happens in the run |
| Http.DisciplineAppend | XutilsDemo_SVN/xutilslibrary/src/main/java/com/lidroid/xutils/http/HttpHandler.java:298-300 | a disciplined run followed by a nested (redirect) run is disciplined, and it ends in a refusal iff the nested run does |
| Http.HttpHandler.constructor | XutilsDemo_SVN/xutilslibrary/src/main/java/com/lidroid/xutils/http/HttpHandler.java:68-95 | a new task is WAITING with nothing retried, published or delivered, uploading, not downloading, with no resume or rename |
| Http.HttpHandler.SendRequest | XutilsDemo_SVN/xutilslibrary/src/main/java/com/lidroid/xutils/http/HttpHandler.java:111-189 | the whole run is Passes from the request, the entry fields and the cache: every round re-sets the resume header on the same request and records its method in requestMethod; a round not served by the cache, not cancelled, whose exception is retryable and accepted by the handler with retriedCount + 1, goes round again; the first round that does not ends the run as Settles says (a cache hit returns fromCache with no execute, a task seen cancelled returns null, a followed redirect runs sendRequest again and rethrows its exception as OTHER_EXCEPTION, and otherwise PassEnds: a result is returned, an HttpException or RuntimeException becomes OTHER_EXCEPTION with that cause and no query, any other exception is queried with count + 1 and a "no" throws its category), so a refusal on a later pass throws that pass's category; isUploading, autoResume, requestMethod and retriedCount end as those rounds leave them; the run is disciplined; the cache afterwards is StoredAfter: a fresh 2xx text, outside a download and with caching enabled for the final requestMethod, is stored under requestUrl, and nothing else changes the cache |
| Http.HttpHandler.RetryLoop | XutilsDemo_SVN/xutilslibrary/src/main/java/com/lidroid/xutils/http/HttpHandler.java:114-188 | the while loop: the rounds before the last each retried (the loop invariant Retried), and the last one settled the run or the attempts ran out, which together are Passes of the whole script; calls, discipline and refusal facts as for SendRequest, and the cache is StoredAfter of the loop's result: earlier rounds leave it alone (invariant), the last one stores a fresh text |
| Http.HttpHandler.PassesStart | XutilsDemo_SVN/xutilslibrary/src/main/java/com/lidroid/xutils/http/HttpHandler.java:114-145 | every run begins with the cache: a hit returns fromCache with no call and no count change; otherwise a task seen cancelled returns null with no call; otherwise the first call is the execute of the request with its resume header |
| Http.HttpHandler.RetriedThenPasses | XutilsDemo_SVN/xutilslibrary/src/main/java/com/lidroid/xutils/http/HttpHandler.java:114-188 | rounds that retried from a start request, followed by a run from where they left off, are one run from the start, with the calls of both in order |
| Http.HttpHandler.RetriedExtend | XutilsDemo_SVN/xutilslibrary/src/main/java/com/lidroid/xutils/http/HttpHandler.java:114-188 | one more accepted retry extends the retried prefix: the request becomes the sent one, the fields those RetryFields gives, and its execute and query are appended |
| Http.HttpHandler.LoopEnds | XutilsDemo_SVN/xutilslibrary/src/main/java/com/lidroid/xutils/http/HttpHandler.java:114-188 | the loop ends either when the attempts run out (Unfinished, fields unchanged) or at a round that does not retry and settles; both give Passes of the whole script |
| Http.HttpHandler.Round | XutilsDemo_SVN/xutilslibrary/src/main/java/com/lidroid/xutils/http/HttpHandler.java:114-145 | one round sends the request with its resume header and sets requestMethod to its method; it goes round again exactly when Retries holds, having executed and asked the handler (RetryRun), with the fields RetryFields gives (requestMethod the sent method, isUploading and autoResume as handleResponse left them, count + 1) and the cache unchanged; otherwise it ends the run as Settles says, with the fields that gives, and the cache is StoredAfter of its result: a cache hit or a cancelled round leaves it alone, a pass that returns a fresh text stores it when caching is enabled |
| Http.HttpHandler.PassOutcome | XutilsDemo_SVN/xutilslibrary/src/main/java/com/lidroid/xutils/http/HttpHandler.java:139-187 | a pass past the cache and cancel checks goes round again exactly when Retries holds, with the calls RetryRun and the fields RetryFields, and otherwise settles the run |
| Http.HttpHandler.Try | XutilsDemo_SVN/xutilslibrary/src/main/java/com/lidroid/xutils/http/HttpHandler.java:139-187 | one pass executes the request first; without a followed redirect it ends as PassEnds says for what execute and handleResponse gave (the exception decides the category and whether the handler is asked), and leaves isUploading, autoResume and requestMethod as AfterTransport says; a followed redirect is the nested run (Passes) with its exception rethrown as OTHER_EXCEPTION; it goes round again only after the handler accepted a query about this pass's own exception, with the cache unchanged; it throws only categorized HttpExceptions; the cache is StoredAfter of its result, so a pass returning a fresh 2xx text stores it when caching is enabled and an exception leaves the cache alone |
| Http.HttpHandler.Exchange | XutilsDemo_SVN/xutilslibrary/src/main/java/com/lidroid/xutils/http/HttpHandler.java:139-143 | execute is called with the prepared request; an exception it throws is the pass's result unchanged, with no field changed; otherwise, without a followed redirect, the result is what handleResponse gives (Immediate) with no further call, no count change and the fields AfterTransport gives; a followed redirect is the nested sendRequest run (Passes), and what it throws is never retryable; the cache is StoredAfter of the result, unchanged when execute throws |
| Http.HttpHandler.Recover | XutilsDemo_SVN/xutilslibrary/src/main/java/com/lidroid/xutils/http/HttpHandler.java:146-187 | HttpException and RuntimeException are wrapped as OTHER_EXCEPTION and never retried; any other exception increments retriedCount by one, then asks the handler with the new count, and a "no" throws the classified category; either way the result is an exception |
| Http.HttpHandler.HandleResponse | XutilsDemo_SVN/xutilslibrary/src/main/java/com/lidroid/xutils/http/HttpHandler.java:266-308 | without a followed redirect the result is Handled of the download setup at entry, with no call, and isUploading, autoResume and requestMethod as AfterHandle says: isUploading cleared exactly when a 2xx entity is read, and then in a download autoResume kept only with range support, also when reading the entity fails; a 301/302 whose handler gives a request is the nested sendRequest's whole run (Passes) and throws nothing retryable; a 2xx text body is stored under requestUrl exactly when caching is enabled for requestMethod, and the cache is StoredAfter of the result on every path, the nested run's included |
| Http.HttpHandler.HandledOutcomes | XutilsDemo_SVN/xutilslibrary/src/main/java/com/lidroid/xutils/http/HttpHandler.java:266-308 | status by status: null throws "response is null"; cancelled returns null; below 300 a non-cache ResponseInfo with no result without an entity, the reader's exception, a file result carrying the updated autoResume and the file name when renaming, or the text; 301/302 without a request from the handler returns null; 416 throws the range-complete message; every other code throws its reason phrase |
| Http.AfterHandle | XutilsDemo_SVN/xutilslibrary/src/main/java/com/lidroid/xutils/http/HttpHandler.java:279-281 | handleResponse changes only isUploading and autoResume: isUploading is cleared exactly when a 2xx entity is read, and autoResume then becomes autoResume && range support in a download; method and count are kept |
| Http.HttpHandler.Immediate | XutilsDemo_SVN/xutilslibrary/src/main/java/com/lidroid/xutils/http/HttpHandler.java:139-143 | a pass without a followed redirect ends with the exception execute threw or with what handleResponse gives; it is undecided exactly when the response is a redirect that is followed |
| Http.HttpHandler.Redirect | XutilsDemo_SVN/xutilslibrary/src/main/java/com/lidroid/xutils/http/HttpHandler.java:294-301 | the request handleResponse passes back to sendRequest: present only for an uncancelled 301/302 response, and then the redirect handler's request; absent otherwise |
| Http.HttpHandler.Handled | XutilsDemo_SVN/xutilslibrary/src/main/java/com/lidroid/xutils/http/HttpHandler.java:266-308 | handleResponse settles without calling sendRequest again except exactly for a 301/302 whose redirect handler gives a request; its exceptions are HttpExceptions, or the entity reader's own |
| Http.HttpHandler.DoInBackground | XutilsDemo_SVN/xutilslibrary/src/main/java/com/lidroid/xutils/http/HttpHandler.java:191-225 | a cancelled task or missing parameters change no field at all; otherwise the request and URL are recorded, the clock read resets the throttle, START is published, then SUCCESS for a result or FAILURE for an HttpException; what is published is what sendRequest gives on the request from the fields and cache Prepare leaves (Passes), so a first-pass cache hit publishes START then SUCCESS fromCache, a first pass that sees the task cancelled publishes START only, and anything thrown is a categorized HttpException; the cache afterwards is StoredAfter keyed by the URL of doInBackground's own request, also after a redirect; download extras set the save path, isDownloadingFile and the flags |
| Http.HttpHandler.Launch | XutilsDemo_SVN/xutilslibrary/src/main/java/com/lidroid/xutils/http/HttpHandler.java:194-225 | doInBackground past the guard: Prepare, sendRequest from the fields EntryFields and the cache EntryView give, then the event Reported gives for its result; the cache is StoredAfter of that result under the request's URL |
| Http.HttpHandler.Publish | XutilsDemo_SVN/xutilslibrary/src/main/java/com/lidroid/xutils/http/HttpHandler.java:215-222 | sendRequest, then SUCCESS for a result or FAILURE for an HttpException; a cache hit on the first pass reports SUCCESS fromCache, a first pass that misses the cache and sees the task cancelled reports nothing; the cache is StoredAfter of the result under requestUrl |
| Http.StoredAfter | XutilsDemo_SVN/xutilslibrary/src/main/java/com/lidroid/xutils/http/HttpHandler.java:280-290 | a change of the cache is a store under the URL of a fresh text, outside a download, with caching enabled for the method; such a text is stored; anything else leaves the cache alone |
| Http.HttpHandler.SendAgainHitsCache | XutilsDemo_SVN/xutilslibrary/src/main/java/com/lidroid/xutils/http/HttpHandler.java:131-136 | after a sendRequest that returned a fresh text and stored it, a second sendRequest of the same request is answered on its first pass from the cache with that text, fromCache, and no call to the transport |
| Http.EntryFields | XutilsDemo_SVN/xutilslibrary/src/main/java/com/lidroid/xutils/http/HttpHandler.java:195-200 | download extras set the save path (String.valueOf, so always present), isDownloadingFile, autoResume and autoRename, and leave isUploading, requestMethod and retriedCount; without them nothing changes |
| Http.HttpHandler.Prepare | XutilsDemo_SVN/xutilslibrary/src/main/java/com/lidroid/xutils/http/HttpHandler.java:194-213 | the download extras, request, URL, START event and clock reading before sendRequest; the throttle starts afresh from that reading |
| Http.HttpHandler.OnProgressUpdate | XutilsDemo_SVN/xutilslibrary/src/main/java/com/lidroid/xutils/http/HttpHandler.java:234-263 | the new state is Next of the old one and the callbacks made are Notified |
| Http.HttpHandler.UpdateProgress | XutilsDemo_SVN/xutilslibrary/src/main/java/com/lidroid/xutils/http/HttpHandler.java:338-352 | returns state != CANCELLED; publishes nothing without a callback or once cancelled; a forced update always publishes; an unforced one reads the clock, and publishes and moves lastUpdateTime only when `rate` ms have passed, which keeps the unforced publications equal to Emitted of the clock readings |
| Http.ThrottledRespectsRate | XutilsDemo_SVN/xutilslibrary/src/main/java/com/lidroid/xutils/http/HttpHandler.java:343-348 | the handler's own unforced publications are clock readings of unforced updates, at least `rate` apart and the first at least `rate` after the start |
| Http.HttpHandler.Cancel | XutilsDemo_SVN/xutilslibrary/src/main/java/com/lidroid/xutils/http/HttpHandler.java:313-333 | the state becomes CANCELLED; the current request is aborted unless it already was, and a failing abort is swallowed; the task flag is set; onCancelled fires on every call with a callback |
| Http.CancelTwice | XutilsDemo_SVN/xutilslibrary/src/main/java/com/lidroid/xutils/http/HttpHandler.java:330-332 | two cancels notify the callback twice |
| Http.Reported | XutilsDemo_SVN/xutilslibrary/src/main/java/com/lidroid/xutils/http/HttpHandler.java:215-222 | a result publishes SUCCESS with it, an HttpException FAILURE with it and its message, and a null result nothing |
| Http.RunEndsInReportedState | XutilsDemo_SVN/xutilslibrary/src/main/java/com/lidroid/xutils/http/HttpHandler.java:211-259 | with a callback and no cancel, a run's events end in SUCCESS iff sendRequest returned a result, FAILURE iff it threw, and STARTED/LOADING otherwise |
| BitmapDownload.SelectSource | XutilsDemo_SVN/xutilslibrary/src/main/java/com/lidroid/xutils/bitmap/download/DefaultDownloader.java:61-94 | a leading "/" is a file, otherwise a leading "assets/" an asset named by the rest of the URI, otherwise a URL |
| BitmapDownload.AssetNameRoundTrip | XutilsDemo_SVN/xutilslibrary/src/main/java/com/lidroid/xutils/bitmap/download/DefaultDownloader.java:70-72 | for every name, the asset opened for "assets/" + name is name |
| BitmapDownload.SlashBeforeAssets | XutilsDemo_SVN/xutilslibrary/src/main/java/com/lidroid/xutils/bitmap/download/DefaultDownloader.java:61-70 | "/assets/x" is read as a local file |
| BitmapDownload.ExpiryFor | XutilsDemo_SVN/xutilslibrary/src/main/java/com/lidroid/xutils/bitmap/download/DefaultDownloader.java:61-94 | a file expires at now + default, an asset at Long.MAX_VALUE, a URL at its expiration unless that is earlier than now, then at now + default |
| BitmapDownload.ExpiryIsNotFailure | XutilsDemo_SVN/xutilslibrary/src/main/java/com/lidroid/xutils/bitmap/download/DefaultDownloader.java:57-115 | with a non-negative clock and default expiry, a success time stamp is never -1 and never in the past |
| BitmapDownload.DownloadToStream | XutilsDemo_SVN/xutilslibrary/src/main/java/com/lidroid/xutils/bitmap/download/DefaultDownloader.java:44-116 | -1 with nothing written when the task is missing, cancelled or lost on entry, when opening fails, or when it is cancelled after opening; otherwise the copy stops at StopAt, the first failed read or failed check: one progress report (fileLen, running count) per chunk before it, the output holds those chunks plus the stopping chunk when its check failed, and the result is the expiry when it stops at the end and -1 otherwise |
| BitmapDownload.StopAt | XutilsDemo_SVN/xutilslibrary/src/main/java/com/lidroid/xutils/bitmap/download/DefaultDownloader.java:99-107 | the copy stops at the first read that fails or whose following check fails, every read before it being a chunk, or at the end |
| BitmapDownload.CompletesIffNoStop | XutilsDemo_SVN/xutilslibrary/src/main/java/com/lidroid/xutils/bitmap/download/DefaultDownloader.java:99-115 | the copy runs to the end exactly when it stops at no read |
| BitmapDownload.ProgressSteps | XutilsDemo_SVN/xutilslibrary/src/main/java/com/lidroid/xutils/bitmap/download/DefaultDownloader.java:99-107 | the reported length is constant; the count starts at one chunk, grows by 1 to 4096 bytes per report, and ends at the number of bytes copied |
| SoftReferenceDemo.Employee.constructor | XutilsDemo_SVN/softreferencedemo/src/main/java/com/example/Employee.java:14-17 | a new employee carries the id it was built with |
| SoftReferenceDemo.EmployeeRef.constructor | XutilsDemo_SVN/softreferencedemo/src/main/java/com/example/EmployleeCache.java:13-21 | a new reference holds the employee and remembers its id as key |
| SoftReferenceDemo.KeysOf | XutilsDemo_SVN/softreferencedemo/src/main/java/com/example/EmployleeCache.java:76-78 | the keys removed by a drain are exactly the keys of the polled references |
| SoftReferenceDemo.EmployeeCache.constructor | XutilsDemo_SVN/softreferencedemo/src/main/java/com/example/EmployleeCache.java:24-27 | the new table and queue are empty |
| SoftReferenceDemo.EmployeeCache.GetEmployee | XutilsDemo_SVN/softreferencedemo/src/main/java/com/example/EmployleeCache.java:51-67 | never null and always of the asked id; a live cached object is returned itself with nothing changed; otherwise a new employee is cached under the id after the queue's keys are dropped, and no other key changes |
| SoftReferenceDemo.EmployeeCache.CacheEmployee | XutilsDemo_SVN/softreferencedemo/src/main/java/com/example/EmployleeCache.java:40-44 | the queue is drained completely before a fresh reference to the employee is stored under its id; no other key changes |
| SoftReferenceDemo.EmployeeCache.CleanCache | XutilsDemo_SVN/softreferencedemo/src/main/java/com/example/EmployleeCache.java:73-79 | the queue ends empty, and exactly the keys of the polled references are removed, whatever those keys now map to |
| SoftReferenceDemo.EmployeeCache.Collect | XutilsDemo_SVN/softreferencedemo/src/main/java/com/example/EmployleeCache.java:13-21 | the collector clearing a soft reference keeps the table consistent |
| SoftReferenceDemo.EmployeeCache.Enqueue | XutilsDemo_SVN/softreferencedemo/src/main/java/com/example/EmployleeCache.java:11-18 | the collector appends a cleared reference to the queue, once |
| SoftReferenceDemo.CacheHolder.GetInstance | XutilsDemo_SVN/softreferencedemo/src/main/java/com/example/EmployleeCache.java:29-34 | the first call builds an empty cache and every later call returns that same cache |
| SoftReferenceDemo.GetInstanceTwice | XutilsDemo_SVN/softreferencedemo/src/main/java/com/example/EmployleeCache.java:29-34 | two calls of getInstance return the same object |
| SoftReferenceDemo.QueuedKeyEvictsLiveEntry | XutilsDemo_SVN/softreferencedemo/src/main/java/com/example/EmployleeCache.java:51-78 | on any valid cache where the entry for id is live and a cleared reference with key id is queued, a lookup of an id with no live entry drains the queue and removes the live entry for id; the removed reference still holds an uncollected employee with that id |
| SoftReferenceDemo.StaleReferenceEvictsLiveEntry | XutilsDemo_SVN/softreferencedemo/src/main/java/com/example/EmployleeCache.java:51-78 | from a new cache: look up id, the collector clears that reference, look up id again (a live employee `live`), the stale reference is enqueued, look up another id; the entry evicted is the one holding `live`, and id is gone from the table |

## Left out

- Threads: the worker and the UI thread of PriorityAsyncTask run one after the other. The model does not capture their interleaving, or the `synchronized` on getInstance.
- Cancellation: the cancellation `Cancel` records is not wired to the `Attempt` answers that sendRequest's and handleResponse's `isCancelled()` checks read. Those answers are inputs.
- Http.HttpHandler.SendRequest: when the supplied attempts run out, the model returns `Unfinished`, where the source would go on looping. This keeps the loop finite.
- Http.HttpHandler.Recover: the retry handler is asked about the original exception. For the last catch clause the source passes an IOException that wraps the Throwable, and the model does not represent it.
- The HttpContext, the Apache client, `request.abort()` beyond whether it takes effect, `OtherUtils.isSupportRange`, `OtherUtils.getFileNameFromHttpResponse`, and the FileDownloadHandler and StringDownloadHandler bodies are not part of this model. The handlers' own `updateProgress` calls and the charset are not modelled either. Reading an entity is one result: its text, or the exception the reader raised.
- HttpTypes.WithResume: header names are compared exactly. Apache's `setHeader` replaces a header whose name matches "RANGE" ignoring case, so a user's "Range" header would be replaced where WithResumeKeepsOtherHeaders keeps it.
- The RANGE header is set on the very request object that `doInBackground` stored in `request`. The model's `request` field keeps the request as it was passed in, and the header lives only in the requests given to execute.
- Java null inputs are typed away: a null id in `getEmployee` (a NullPointerException from `Hashtable.containsKey`), a null `uri` in `downloadToStream` (caught there, giving -1), and parameters of the wrong type in `doInBackground` (ClassCastException from the casts at HttpHandler.java lines 198 and 205, outside any HttpException catch).
- Http.IsRedirectRequested and Http.GetLocationUri are not called by the rest of the model. They state why a `Returned` transport carries a 301/302 response itself: the client never follows a redirect on its own, and handleResponse sees it.
- The HttpCache internals, that is its expiry and eviction, are not part of this model. The cache is a set of enabled methods plus a map from URL to text.
- Setters and accessors that are outside the core are not modelled: `setRequestUrl` on the callback, `setHttpRedirectHandler`, `setExpiry` and `setRequestCallBack`.
- onProgressUpdate with null or empty values, or with a first value that is not an Integer, is not modelled: the worker never publishes one. A value of the wrong type for its code records no callback, where the source's cast would throw after setting the state.
- BitmapDownload.DownloadToStream:
  - the clock is read once, where the source reads it twice on the URL path;
  - `now + defaultExpiry` is unbounded, where a Java long would wrap;
  - `written` is what was passed to `out.write`, and the BufferedOutputStream's own buffering and flush are not modelled;
  - write failures, the HTTPS trust setup, the timeouts and closeQuietly are not modelled.
- Employee: only the id is modelled, and it never changes. The source's `setId` could change it after caching.

=== FILE: default_downloader.dfy ===
/**
 * DefaultDownloader.downloadToStream of the bitmap loader: pick the source of
 * a URI (local file, packaged asset or URL), work out the expiry time stamp
 * the caller stores with the bitmap, and copy the stream to the output in
 * chunks of at most 4096 bytes, reporting progress after each chunk and
 * giving up with -1 as soon as the load task is cancelled or its target
 * container is gone.
 *
 * The environment is supplied as inputs: `open` says what opening each kind
 * of source yields, `live(k)` whether the k-th check of the task (cancelled
 * or container collected) finds it still wanted, and `now` is the clock.
 */
module BitmapDownload {

  /** Long.MAX_VALUE: the expiry of a packaged asset, which never expires. */
  const LONG_MAX: int := 0x7FFF_FFFF_FFFF_FFFF

  /** The size of the copy buffer. */
  const CHUNK: int := 4096

  const ASSETS_PREFIX: string := "assets/"

  type byte = bv8

  /** Where downloadToStream reads a URI from. */
  datatype Source = LocalFile(path: string) | Asset(name: string) | Remote(url: string)

  predicate StartsWith(s: string, prefix: string)
  {
    |prefix| <= |s| && s[..|prefix|] == prefix
  }

  /**
   * The source of a URI: a leading "/" is a file path, a leading "assets/"
   * names an asset by the rest of the URI, and anything else is a URL.
   */
  function SelectSource(uri: string): (src: Source)
    ensures src.LocalFile? <==> StartsWith(uri, "/")
    ensures src.Asset? <==> !StartsWith(uri, "/") && StartsWith(uri, ASSETS_PREFIX)
    ensures src.LocalFile? ==> src.path == uri
    ensures src.Asset? ==> ASSETS_PREFIX + src.name == uri
    ensures src.Remote? ==> src.url == uri
  {
    if StartsWith(uri, "/") then LocalFile(uri)
    else if StartsWith(uri, ASSETS_PREFIX) then Asset(uri[|ASSETS_PREFIX|..])
    else Remote(uri)
  }

  /** The asset name is exactly what follows "assets/", so an asset URI is rebuilt from it. */
  lemma AssetNameRoundTrip(name: string)
    ensures SelectSource(ASSETS_PREFIX + name) == Asset(name)
  {
    var uri := ASSETS_PREFIX + name;
    assert uri[..1] == "a";
    assert uri[..|ASSETS_PREFIX|] == ASSETS_PREFIX;
    assert uri[|ASSETS_PREFIX|..] == name;
  }

  /** The file test comes first: "/assets/x" is a file path, not an asset. */
  lemma SlashBeforeAssets(rest: string)
    ensures SelectSource("/" + ASSETS_PREFIX + rest).LocalFile?
  {
    var uri := "/" + ASSETS_PREFIX + rest;
    assert uri[..1] == "/";
  }

  /**
   * The expiry time stamp of a successful download: a file keeps its bitmap
   * for the default expiry, an asset forever, and a URL until the expiration
   * the server sent, or for the default expiry when that lies in the past.
   */
  function ExpiryFor(src: Source, now: int, defaultExpiry: int, expiration: int): (e: int)
    ensures src.LocalFile? ==> e == now + defaultExpiry
    ensures src.Asset? ==> e == LONG_MAX
    ensures src.Remote? && expiration >= now ==> e == expiration
    ensures src.Remote? && expiration < now ==> e == now + defaultExpiry
  {
    match src
    case LocalFile(_) => now + defaultExpiry
    case Asset(_) => LONG_MAX
    case Remote(_) => if expiration < now then now + defaultExpiry else expiration
  }

  /**
   * With a clock and a default expiry that are not negative and whose sum
   * fits in a long, a successful download's time stamp is never the -1 that
   * signals failure, and it is never in the past.
   */
  lemma ExpiryIsNotFailure(src: Source, now: int, defaultExpiry: int, expiration: int)
    requires now >= 0 && defaultExpiry >= 0 && now + defaultExpiry <= LONG_MAX
    ensures ExpiryFor(src, now, defaultExpiry, expiration) >= now
    ensures ExpiryFor(src, now, defaultExpiry, expiration) != -1
  {
  }

  /** One call of bis.read(buffer): a chunk of bytes, or an exception. End of stream closes the sequence. */
  datatype Read = Chunk(bytes: seq<byte>) | ReadFailed

  /** An opened source: the length it reports, the expiration (URLs only) and its reads up to end of stream. */
  datatype Stream = Stream(length: int, expiration: int, chunks: seq<Read>)

  /** What opening a source yields: an exception, or a stream. */
  datatype Opening = OpenFailed | Opened(stream: Stream)

  /** A buffered read fills between one and 4096 bytes of the buffer. */
  predicate ChunksFit(rs: seq<Read>)
  {
    forall i :: 0 <= i < |rs| && rs[i].Chunk? ==> 0 < |rs[i].bytes| <= CHUNK
  }

  /** The bytes of the chunks of `rs`, in order. */
  function Flatten(rs: seq<Read>): seq<byte>
    decreases |rs|
  {
    if rs == [] then []
    else Flatten(rs[..|rs| - 1]) + (if rs[|rs| - 1].Chunk? then rs[|rs| - 1].bytes else [])
  }

  /** The (fileLen, currCount) pair reported after each of `rs`. */
  function Progress(fileLen: int, rs: seq<Read>): (p: seq<(int, int)>)
    ensures |p| == |rs|
    decreases |rs|
  {
    if rs == [] then []
    else Progress(fileLen, rs[..|rs| - 1]) + [(fileLen, |Flatten(rs)|)]
  }

  /** The j-th read is a chunk, and the check after writing it finds the task still wanted. */
  predicate Through(rs: seq<Read>, live: nat -> bool, j: int)
  {
    0 <= j < |rs| && rs[j].Chunk? && live(j + 2)
  }

  /** The copy runs to the end: every read is a chunk and every check after a chunk finds the task wanted. */
  predicate Completes(rs: seq<Read>, live: nat -> bool)
  {
    forall j :: 0 <= j < |rs| ==> Through(rs, live, j)
  }

  /**
   * The index of the read at which the copy stops, looking from `i` on: the
   * first read that fails or whose check afterwards finds the task no longer
   * wanted, or |rs| when there is none.
   */
  function StopAt(rs: seq<Read>, live: nat -> bool, i: nat): (k: nat)
    requires i <= |rs|
    ensures i <= k <= |rs|
    ensures forall j :: i <= j < k ==> Through(rs, live, j)
    ensures k < |rs| ==> !Through(rs, live, k)
    decreases |rs| - i
  {
    if i == |rs| || !Through(rs, live, i) then i else StopAt(rs, live, i + 1)
  }

  /** The copy stops at `i` when every read from `from` up to it went through and `i` is the end or fails. */
  lemma {:induction false} StopAtIs(rs: seq<Read>, live: nat -> bool, from: nat, i: nat)
    requires from <= i <= |rs|
    requires forall j :: from <= j < i ==> Through(rs, live, j)
    requires i == |rs| || !Through(rs, live, i)
    ensures StopAt(rs, live, from) == i
    decreases i - from
  {
    if from < i {
      assert Through(rs, live, from);
      StopAtIs(rs, live, from + 1, i);
    }
  }

  /** The copy runs to the end exactly when it stops at no read. */
  lemma CompletesIffNoStop(rs: seq<Read>, live: nat -> bool)
    ensures Completes(rs, live) <==> StopAt(rs, live, 0) == |rs|
  {
    if Completes(rs, live) {
      StopAtIs(rs, live, 0, |rs|);
    } else {
      var k := StopAt(rs, live, 0);
      var j :| 0 <= j < |rs| && !Through(rs, live, j);
      assert k <= j;
    }
  }

  /**
   * downloadToStream. `live(0)` is the check on entry (which also fails when
   * there is no task), `live(1)` the check once the source is open, and
   * `live(j + 2)` the check after the j-th chunk is written. The result is the
   * expiry time stamp when the copy runs to the end and -1 otherwise;
   * `written` is what reached the output and `progress` the updateProgress
   * calls made.
   */
  method DownloadToStream(uri: string, hasTask: bool, live: nat -> bool, open: Source -> Opening,
                          now: int, defaultExpiry: int)
    returns (result: int, written: seq<byte>, progress: seq<(int, int)>)
    requires open(SelectSource(uri)).Opened? ==> ChunksFit(open(SelectSource(uri)).stream.chunks)
    ensures !hasTask || !live(0) || open(SelectSource(uri)).OpenFailed? || !live(1) ==>
              result == -1 && written == [] && progress == []
    ensures hasTask && live(0) && open(SelectSource(uri)).Opened? && live(1) ==>
              var s := open(SelectSource(uri)).stream;
              && |progress| <= |s.chunks|
              && progress == Progress(s.length, s.chunks[..|progress|])
              && (written == Flatten(s.chunks[..|progress|])
                  || (|progress| < |s.chunks| && written == Flatten(s.chunks[..|progress| + 1])))
              && (Completes(s.chunks, live) ==>
                    result == ExpiryFor(SelectSource(uri), now, defaultExpiry, s.expiration)
                    && written == Flatten(s.chunks) && |progress| == |s.chunks|)
              && (!Completes(s.chunks, live) ==> result == -1)
    // the copy stops at the first failed read or check: one report per chunk read before it, and the
    // output holds that chunk too when it was the check after it that failed
    ensures hasTask && live(0) && open(SelectSource(uri)).Opened? && live(1) ==>
              var s := open(SelectSource(uri)).stream;
              var k := StopAt(s.chunks, live, 0);
              && |progress| == k
              && (forall j :: 0 <= j < k ==> Through(s.chunks, live, j))
              && (k < |s.chunks| && s.chunks[k].Chunk? ==> written == Flatten(s.chunks[..k + 1]))
              && (k == |s.chunks| || s.chunks[k].ReadFailed? ==> written == Flatten(s.chunks[..k]))
              && (k < |s.chunks| ==> result == -1)
              && (k == |s.chunks| ==> result == ExpiryFor(SelectSource(uri), now, defaultExpiry, s.expiration))
  {
    if !hasTask || !live(0) {
      return -1, [], [];
    }
    var src := SelectSource(uri);
    var opening := open(src);
    if opening.OpenFailed? {
      return -1, [], [];
    }
    var stream := opening.stream;
    result := ExpiryFor(src, now, defaultExpiry, stream.expiration);
    var fileLen := stream.length;
    if !live(1) {
      return -1, [], [];
    }
    var currCount := 0;
    var i := 0;
    written := [];
    progress := [];
    while i < |stream.chunks|
      invariant 0 <= i <= |stream.chunks|
      invariant forall j :: 0 <= j < i ==> Through(stream.chunks, live, j)
      invariant written == Flatten(stream.chunks[..i]) && currCount == |written|
      invariant progress == Progress(fileLen, stream.chunks[..i])
    {
      match stream.chunks[i] {
        case ReadFailed =>
          assert !Through(stream.chunks, live, i);
          StopAtIs(stream.chunks, live, 0, i);
          assert !Completes(stream.chunks, live);
          return -1, written, progress;
        case Chunk(bytes) =>
          assert stream.chunks[..i + 1][..i] == stream.chunks[..i];
          written := written + bytes;
          assert Flatten(stream.chunks[..i + 1]) == Flatten(stream.chunks[..i]) + bytes;
          currCount := currCount + |bytes|;
          if !live(i + 2) {
            assert !Through(stream.chunks, live, i);
            StopAtIs(stream.chunks, live, 0, i);
            assert !Completes(stream.chunks, live);
            return -1, written, progress;
          }
          progress := progress + [(fileLen, currCount)];
          assert progress == Progress(fileLen, stream.chunks[..i + 1]);
      }
      i := i + 1;
    }
    assert stream.chunks[..i] == stream.chunks;
    assert Completes(stream.chunks, live);
    CompletesIffNoStop(stream.chunks, live);
  }

  /**
   * The progress the copy reports: the file length never changes, the count
   * grows by between 1 and 4096 bytes from one report to the next, starting
   * with at most one chunk, and it ends at the number of bytes copied.
   */
  lemma {:induction false} ProgressSteps(fileLen: int, rs: seq<Read>)
    requires ChunksFit(rs)
    requires forall j :: 0 <= j < |rs| ==> rs[j].Chunk?
    ensures var p := Progress(fileLen, rs);
            && (forall i :: 0 <= i < |p| ==> p[i].0 == fileLen)
            && (|p| > 0 ==> 0 < p[0].1 <= CHUNK)
            && (forall i :: 0 < i < |p| ==> 0 < p[i].1 - p[i - 1].1 <= CHUNK)
            && (|p| > 0 ==> p[|p| - 1].1 == |Flatten(rs)|)
    decreases |rs|
  {
    if rs != [] {
      var init := rs[..|rs| - 1];
      assert forall j :: 0 <= j < |init| ==> init[j] == rs[j];
      ProgressSteps(fileLen, init);
      var p := Progress(fileLen, rs);
      var q := Progress(fileLen, init);
      assert p == q + [(fileLen, |Flatten(rs)|)];
      assert |Flatten(rs)| == |Flatten(init)| + |rs[|rs| - 1].bytes|;
      if |q| > 0 {
        assert q[|q| - 1].1 == |Flatten(init)|;
      } else {
        assert init == [];
      }
    }
  }
}

=== FILE: employee_cache.dfy ===
/**
 * EmployleeCache of the soft-reference demo: a singleton table from employee
 * id to a soft reference to the Employee object. A lookup returns the object
 * while the collector has left it alone and otherwise builds a new one, after
 * dropping the table entries of every reference the collector has cleared
 * and placed on the reference queue.
 *
 * The garbage collector is an environment step: Collect clears a reference,
 * and Enqueue later appends it to the queue.
 */
module SoftReferenceDemo {

  /** An employee; of its fields only the id takes part in the cache. */
  class Employee {
    const id: string

    /** new Employee(id): the data lookup it starts does nothing. */
    constructor (id: string)
      ensures this.id == id
    {
      this.id := id;
    }
  }

  /**
   * EmployeeRef: a soft reference to an employee that remembers the key it
   * was stored under. `referent` is what get() returns (null once cleared),
   * and `enqueued` whether the collector has put it on the queue.
   */
  class EmployeeRef {
    const key: string
    var referent: Employee?
    var enqueued: bool

    constructor (em: Employee)
      ensures key == em.id && referent == em && !enqueued
    {
      key := em.id;
      referent := em;
      enqueued := false;
    }
  }

  /** The keys of a run of references, as poll() hands them out. */
  function KeysOf(refs: seq<EmployeeRef>): (keys: set<string>)
    ensures forall i :: 0 <= i < |refs| ==> refs[i].key in keys
    ensures forall k :: k in keys ==> exists i :: 0 <= i < |refs| && refs[i].key == k
    decreases |refs|
  {
    if refs == [] then {} else KeysOf(refs[..|refs| - 1]) + {refs[|refs| - 1].key}
  }

  class EmployeeCache {
    var employeeRefs: map<string, EmployeeRef>
    var queue: seq<EmployeeRef>    // the ReferenceQueue, oldest first

    /**
     * Every entry is stored under its reference's key, a live referent has
     * that id, and the queue holds only references the collector cleared.
     */
    predicate Valid()
      reads this, employeeRefs.Values, queue
    {
      && (forall k :: k in employeeRefs ==> employeeRefs[k].key == k)
      && (forall k :: k in employeeRefs && employeeRefs[k].referent != null ==> employeeRefs[k].referent.id == k)
      && (forall i :: 0 <= i < |queue| ==> queue[i].referent == null && queue[i].enqueued)
    }

    /** The table holds a reference for `id` whose referent has not been cleared. */
    predicate LiveEntry(id: string)
      reads this, employeeRefs.Values
    {
      id in employeeRefs && employeeRefs[id].referent != null
    }

    constructor ()
      ensures Valid() && employeeRefs == map[] && queue == []
    {
      employeeRefs := map[];
      queue := [];
    }

    /**
     * getEmployee: the live cached object for `id` when there is one, with
     * nothing changed; otherwise a new Employee(id), cached after the queue
     * is drained. Either way the result carries `id`.
     */
    method GetEmployee(id: string) returns (em: Employee)
      requires Valid()
      modifies this`employeeRefs, this`queue
      ensures Valid()
      ensures em.id == id
      ensures old(LiveEntry(id)) ==>
                em == old(employeeRefs[id].referent) && employeeRefs == old(employeeRefs) && queue == old(queue)
      ensures !old(LiveEntry(id)) ==>
                && fresh(em) && queue == [] && LiveEntry(id) && employeeRefs[id].referent == em
                && fresh(employeeRefs[id]) && !employeeRefs[id].enqueued
                && employeeRefs == (old(employeeRefs) - KeysOf(old(queue)))[id := employeeRefs[id]]
    {
      var found: Employee? := null;
      if id in employeeRefs {
        var ref := employeeRefs[id];
        found := ref.referent;
      }
      if found == null {
        em := new Employee(id);
        CacheEmployee(em);
      } else {
        em := found;
      }
    }

    /** cacheEmployee: drain the queue, then store a new soft reference to `em` under its id. */
    method CacheEmployee(em: Employee)
      requires Valid()
      modifies this`employeeRefs, this`queue
      ensures Valid()
      ensures queue == [] && em.id in employeeRefs && fresh(employeeRefs[em.id])
      ensures employeeRefs[em.id].referent == em && employeeRefs[em.id].key == em.id && !employeeRefs[em.id].enqueued
      ensures employeeRefs == (old(employeeRefs) - KeysOf(old(queue)))[em.id := employeeRefs[em.id]]
    {
      CleanCache();
      var ref := new EmployeeRef(em);
      employeeRefs := employeeRefs[em.id := ref];
    }

    /**
     * cleanCache: poll the queue until it is empty, removing the table entry
     * under each polled reference's key, whatever reference that entry now
     * holds.
     */
    method CleanCache()
      requires Valid()
      modifies this`employeeRefs, this`queue
      ensures Valid()
      ensures queue == []
      ensures employeeRefs == old(employeeRefs) - KeysOf(old(queue))
    {
      ghost var polled := 0;
      while queue != []
        invariant 0 <= polled <= |old(queue)|
        invariant queue == old(queue)[polled..]
        invariant employeeRefs == old(employeeRefs) - KeysOf(old(queue)[..polled])
        invariant Valid()
        decreases |queue|
      {
        var ref := queue[0];
        queue := queue[1..];
        assert old(queue)[..polled + 1] == old(queue)[..polled] + [ref];
        employeeRefs := employeeRefs - {ref.key};
        polled := polled + 1;
      }
      assert old(queue)[..polled] == old(queue);
    }

    /** The collector clears a soft reference: get() returns null from now on. */
    method Collect(ref: EmployeeRef)
      requires Valid()
      modifies ref`referent
      ensures Valid() && ref.referent == null
    {
      ref.referent := null;
    }

    /** The collector places a cleared reference on the queue, once. */
    method Enqueue(ref: EmployeeRef)
      requires Valid() && ref.referent == null && !ref.enqueued
      modifies this`queue, ref`enqueued
      ensures Valid() && queue == old(queue) + [ref] && ref.enqueued
    {
      ref.enqueued := true;
      queue := queue + [ref];
    }
  }

  /** The static field holding the singleton. */
  class CacheHolder {
    var instance: EmployeeCache?

    constructor ()
      ensures instance == null
    {
      instance := null;
    }

    /** getInstance: builds the cache on the first call and returns that same cache on every call. */
    method GetInstance() returns (c: EmployeeCache)
      modifies this`instance
      ensures old(instance) != null ==> c == old(instance)
      ensures old(instance) == null ==> fresh(c) && c.Valid() && c.employeeRefs == map[] && c.queue == []
      ensures instance == c
    {
      if instance == null {
        instance := new EmployeeCache();
      }
      c := instance;
    }
  }

  /** Two calls of getInstance give the same cache. */
  method GetInstanceTwice(holder: CacheHolder) returns (a: EmployeeCache, b: EmployeeCache)
    modifies holder`instance
    ensures a == b && holder.instance == a
  {
    a := holder.GetInstance();
    b := holder.GetInstance();
  }

  /**
   * Eviction is by key: when the queue holds a cleared reference stored under
   * `id` while the table's entry for `id` is a newer, live one, the next
   * lookup that drains the queue removes that live entry, although its
   * employee has not been collected. `evicted` is the entry removed.
   */
  method QueuedKeyEvictsLiveEntry(cache: EmployeeCache, id: string, other: string) returns (evicted: EmployeeRef)
    requires cache.Valid() && cache.LiveEntry(id) && !cache.LiveEntry(other)
    requires exists i :: 0 <= i < |cache.queue| && cache.queue[i].key == id
    modifies cache`employeeRefs, cache`queue
    ensures cache.Valid() && cache.queue == []
    ensures evicted == old(cache.employeeRefs[id]) && evicted.key == id
    ensures evicted.referent != null && evicted.referent.id == id
    ensures id !in cache.employeeRefs && other in cache.employeeRefs
  {
    evicted := cache.employeeRefs[id];
    var _ := cache.GetEmployee(other);
  }

  /**
   * The scenario behind it: a reference cleared but not yet enqueued when
   * `id` is looked up again, and enqueued afterwards, evicts the live entry
   * that second lookup stored, at the lookup of another id.
   */
  method StaleReferenceEvictsLiveEntry(id: string, other: string)
    returns (cache: EmployeeCache, live: Employee, evicted: EmployeeRef)
    requires other != id
    ensures cache.Valid()
    ensures live.id == id && evicted.key == id && evicted.referent == live
    ensures id !in cache.employeeRefs && other in cache.employeeRefs
  {
    cache := new EmployeeCache();
    var first := cache.GetEmployee(id);
    var stale := cache.employeeRefs[id];
    cache.Collect(stale);
    live := cache.GetEmployee(id);
    assert cache.employeeRefs[id] != stale && cache.employeeRefs[id].referent == live;
    cache.Enqueue(stale);
    assert cache.queue[0].key == id;
    evicted := QueuedKeyEvictsLiveEntry(cache, id, other);
  }
}

=== FILE: http_events.dfy ===
/**
 * The worker-to-observer channel of HttpHandler, made sequential: the worker
 * (doInBackground, updateProgress) publishes events, and onProgressUpdate
 * consumes them one at a time, moving the task state and calling the
 * observer. This module holds the pure part: the event values, the state
 * each event leads to, the callbacks it triggers, and the progress throttle.
 */
module HttpEvents {
  import opened HttpTypes

  const UPDATE_START := 1
  const UPDATE_LOADING := 2
  const UPDATE_FAILURE := 3
  const UPDATE_SUCCESS := 4

  /** The objects publishProgress passes after the leading event code. */
  datatype Value =
    | Num(n: int)                 // a long: total or current byte count
    | Info(info: ResponseInfo)    // the ResponseInfo of a success
    | Err(err: HttpError)         // the HttpException of a failure
    | MessageOf(of: HttpError)    // e.getMessage() of that exception

  /**
   * One publishProgress call: `values[0]` is the Integer `code` and
   * `values[1..]` are `args`, so the source's values.length is 1 + |args|.
   */
  datatype Event = Event(code: int, args: seq<Value>)

  /** The observer calls of RequestCallBack that onProgressUpdate and cancel make. */
  datatype Callback =
    | OnStart
    | OnLoading(total: int, current: int, isUploading: bool)
    | OnFailure(err: HttpError, message: HttpError)
    | OnSuccess(info: ResponseInfo)
    | OnCancelled

  function StartEvent(): Event { Event(UPDATE_START, []) }
  function LoadingEvent(total: int, current: int): Event { Event(UPDATE_LOADING, [Num(total), Num(current)]) }
  function FailureEvent(e: HttpError): Event { Event(UPDATE_FAILURE, [Err(e), MessageOf(e)]) }
  function SuccessEvent(info: ResponseInfo): Event { Event(UPDATE_SUCCESS, [Info(info)]) }

  /** The event carries the number of values its code needs. */
  predicate WellSized(ev: Event)
  {
    match ev.code
    case 2 => 1 + |ev.args| == 3
    case 3 => 1 + |ev.args| == 3
    case 4 => 1 + |ev.args| == 2
    case _ => true
  }

  /**
   * The state after onProgressUpdate handles `ev` in state `s`: nothing moves
   * once CANCELLED or without a callback; START moves to STARTED; LOADING,
   * FAILURE and SUCCESS move to their state when the value count is right and
   * leave the state alone otherwise; other codes change nothing.
   */
  function Next(s: State, hasCallback: bool, ev: Event): (t: State)
    ensures s == Cancelled || !hasCallback ==> t == s
    ensures s != Cancelled && hasCallback && ev.code == UPDATE_START ==> t == Started
    ensures s != Cancelled && hasCallback && ev.code == UPDATE_LOADING ==>
              t == if WellSized(ev) then Loading else s
    ensures s != Cancelled && hasCallback && ev.code == UPDATE_FAILURE ==>
              t == if WellSized(ev) then Failure else s
    ensures s != Cancelled && hasCallback && ev.code == UPDATE_SUCCESS ==>
              t == if WellSized(ev) then Success else s
    ensures !(1 <= ev.code <= 4) ==> t == s
  {
    if s == Cancelled || !hasCallback then s
    else if ev.code == UPDATE_START then Started
    else if ev.code == UPDATE_LOADING then (if |ev.args| + 1 != 3 then s else Loading)
    else if ev.code == UPDATE_FAILURE then (if |ev.args| + 1 != 3 then s else Failure)
    else if ev.code == UPDATE_SUCCESS then (if |ev.args| + 1 != 2 then s else Success)
    else s
  }

  /**
   * The observer call onProgressUpdate makes for `ev` in state `s`. A value of
   * the wrong type makes the source's cast throw right after the state was
   * set; then no callback is recorded.
   */
  function Notified(s: State, hasCallback: bool, isUploading: bool, ev: Event): (cs: seq<Callback>)
    ensures |cs| <= 1
    ensures s == Cancelled || !hasCallback || !WellSized(ev) ==> cs == []
    ensures s != Cancelled && hasCallback ==>
              (ev == StartEvent() ==> cs == [OnStart]) &&
              (forall t, c :: ev == LoadingEvent(t, c) ==> cs == [OnLoading(t, c, isUploading)]) &&
              (forall e :: ev == FailureEvent(e) ==> cs == [OnFailure(e, e)]) &&
              (forall i :: ev == SuccessEvent(i) ==> cs == [OnSuccess(i)])
  {
    if s == Cancelled || !hasCallback then []
    else if ev.code == UPDATE_START then [OnStart]
    else if ev.code == UPDATE_LOADING then
      (if |ev.args| + 1 != 3 then []
       else if ev.args[0].Num? && ev.args[1].Num? then [OnLoading(ev.args[0].n, ev.args[1].n, isUploading)]
       else [])
    else if ev.code == UPDATE_FAILURE then
      (if |ev.args| + 1 != 3 then []
       else if ev.args[0].Err? && ev.args[1].MessageOf? then [OnFailure(ev.args[0].err, ev.args[1].of)]
       else [])
    else if ev.code == UPDATE_SUCCESS then
      (if |ev.args| + 1 != 2 then []
       else if ev.args[0].Info? then [OnSuccess(ev.args[0].info)]
       else [])
    else []
  }

  /** The state after onProgressUpdate has handled every event of `evs` in order. */
  function Replay(s: State, hasCallback: bool, evs: seq<Event>): State
    decreases |evs|
  {
    if evs == [] then s else Replay(Next(s, hasCallback, evs[0]), hasCallback, evs[1..])
  }

  /** Once CANCELLED, no event moves the state again. */
  lemma {:induction false} CancelledAbsorbs(hasCallback: bool, evs: seq<Event>)
    ensures Replay(Cancelled, hasCallback, evs) == Cancelled
    decreases |evs|
  {
    if evs != [] {
      CancelledAbsorbs(hasCallback, evs[1..]);
    }
  }

  /** Without a callback the state never moves. */
  lemma {:induction false} NoCallbackNoMove(s: State, evs: seq<Event>)
    ensures Replay(s, false, evs) == s
    decreases |evs|
  {
    if evs != [] {
      NoCallbackNoMove(s, evs[1..]);
    }
  }

  lemma {:induction false} ReplayAppend(s: State, hasCallback: bool, a: seq<Event>, b: seq<Event>)
    ensures Replay(s, hasCallback, a + b) == Replay(Replay(s, hasCallback, a), hasCallback, b)
    decreases |a|
  {
    if a != [] {
      assert (a + b)[1..] == a[1..] + b;
      ReplayAppend(Next(s, hasCallback, a[0]), hasCallback, a[1..], b);
    } else {
      assert a + b == b;
    }
  }

  /** Loading samples keep a started task in STARTED or LOADING. */
  lemma {:induction false} LoadingKeepsRunning(s: State, ls: seq<(int, int)>)
    requires s == Started || s == Loading
    ensures var t := Replay(s, true, LoadingEvents(ls)); t == Started || t == Loading
    ensures ls != [] ==> Replay(s, true, LoadingEvents(ls)) == Loading
    decreases |ls|
  {
    if ls != [] {
      assert LoadingEvents(ls)[1..] == LoadingEvents(ls[1..]);
      LoadingKeepsRunning(Loading, ls[1..]);
    }
  }

  function LoadingEvents(ls: seq<(int, int)>): seq<Event>
  {
    if ls == [] then [] else [LoadingEvent(ls[0].0, ls[0].1)] + LoadingEvents(ls[1..])
  }

  /**
   * A run the worker publishes — START, any number of loading samples, then
   * SUCCESS or FAILURE — drives an uncancelled task with a callback from any
   * state to the matching terminal state.
   */
  lemma RunReachesOutcome(s: State, ls: seq<(int, int)>, last: Event)
    requires s != Cancelled
    requires last.code == UPDATE_SUCCESS || last.code == UPDATE_FAILURE
    requires WellSized(last)
    ensures Replay(s, true, [StartEvent()] + LoadingEvents(ls) + [last])
            == if last.code == UPDATE_SUCCESS then Success else Failure
  {
    var mid := Replay(s, true, [StartEvent()]);
    assert mid == Started;
    ReplayAppend(s, true, [StartEvent()], LoadingEvents(ls));
    LoadingKeepsRunning(Started, ls);
    ReplayAppend(s, true, [StartEvent()] + LoadingEvents(ls), [last]);
  }

  // ---------------------------------------------------------------------------
  // The progress throttle of updateProgress

  /** An unforced update at `now` publishes when at least `rate` ms passed since `last`. */
  predicate Due(last: int, rate: int, now: int)
  {
    now - last >= rate
  }

  /** The times at which a sequence of unforced updates publishes, starting from `last`. */
  function Emitted(last: int, rate: int, times: seq<int>): (e: seq<int>)
    ensures |e| <= |times|
    decreases |times|
  {
    if times == [] then []
    else if Due(last, rate, times[0]) then [times[0]] + Emitted(times[0], rate, times[1..])
    else Emitted(last, rate, times[1..])
  }

  /**
   * Unforced emissions respect the rate: the first comes at least `rate` after
   * `last`, and each later one at least `rate` after the one before it.
   */
  lemma {:induction false} EmittedRespectsRate(last: int, rate: int, times: seq<int>)
    ensures var e := Emitted(last, rate, times);
            (e != [] ==> e[0] - last >= rate) &&
            forall i :: 0 < i < |e| ==> e[i] - e[i - 1] >= rate
    decreases |times|
  {
    if times != [] {
      EmittedRespectsRate(times[0], rate, times[1..]);
      if !Due(last, rate, times[0]) {
        EmittedRespectsRate(last, rate, times[1..]);
      }
    }
  }

  /** The time of the last publication of a run of unforced updates, or `last` when there was none. */
  function LastEmitted(last: int, rate: int, times: seq<int>): (l: int)
    ensures l == last || l in times
  {
    var e := Emitted(last, rate, times);
    EmittedFromTimes(last, rate, times);
    if e == [] then last else e[|e| - 1]
  }

  /**
   * A run of unforced updates is its single steps one after the other: one
   * more update publishes exactly when it is due after the last publication
   * so far.
   */
  lemma {:induction false} EmittedSnoc(last: int, rate: int, times: seq<int>, t: int)
    ensures Emitted(last, rate, times + [t]) ==
            Emitted(last, rate, times) + (if Due(LastEmitted(last, rate, times), rate, t) then [t] else [])
    decreases |times|
  {
    if times == [] {
      assert times + [t] == [t];
      assert Emitted(last, rate, [t][1..]) == [];
    } else {
      assert (times + [t])[0] == times[0];
      assert (times + [t])[1..] == times[1..] + [t];
      if Due(last, rate, times[0]) {
        EmittedSnoc(times[0], rate, times[1..], t);
        assert LastEmitted(last, rate, times) == LastEmitted(times[0], rate, times[1..]);
      } else {
        EmittedSnoc(last, rate, times[1..], t);
      }
    }
  }

  /** Every emission time is one of the update times, so nothing is invented. */
  lemma {:induction false} EmittedFromTimes(last: int, rate: int, times: seq<int>)
    ensures forall t :: t in Emitted(last, rate, times) ==> t in times
    decreases |times|
  {
    if times != [] {
      EmittedFromTimes(times[0], rate, times[1..]);
      EmittedFromTimes(last, rate, times[1..]);
    }
  }
}

=== FILE: http_handler.dfy ===
/**
 * HttpHandler: one request's lifecycle. The background worker
 * (doInBackground, sendRequest, handleResponse, updateProgress) and the
 * observer side (onProgressUpdate, cancel) are methods of one object, run
 * one after the other; the worker's publishProgress calls are appended to
 * `published`, and the observer calls the handler makes are appended to
 * `delivered`.
 *
 * The environment is supplied as inputs: for each pass of sendRequest's retry
 * loop an `Attempt` says what the partial download file measures, whether a
 * concurrent cancel() has become visible to the two isCancelled() checks, and
 * what client.execute did. The retry handler and the redirect handler are
 * functions fixed when the handler is built.
 */
module Http {
  import opened HttpTypes
  import opened HttpEvents

  /**
   * HttpUtils.sHttpCache as the engine uses it: a set of HTTP methods for which
   * caching is enabled, and a map from request URL to cached response text.
   */
  class HttpCache {
    var enabledMethods: set<string>
    var entries: map<string, string>

    constructor (enabled: set<string>)
      ensures enabledMethods == enabled && entries == map[]
    {
      enabledMethods := enabled;
      entries := map[];
    }

    predicate IsEnabled(verb: string)
      reads this
    {
      verb in enabledMethods
    }

    /** Stores `value` under `url`; the expiry is kept by HttpCache itself and is not modelled. */
    method Put(url: string, value: string, expiry: int)
      modifies this`entries
      ensures entries == old(entries)[url := value]
    {
      entries := entries[url := value];
    }
  }

  /** What client.execute did on one pass: it threw, or it returned a (possibly null) response. */
  datatype Transport = Threw(exn: Exn) | Returned(response: Option<Response>)

  /**
   * The environment during one pass of sendRequest's loop: the length of the
   * partial download file (0 when there is none), what the isCancelled()
   * check before execute and the one at the top of handleResponse report, and
   * what execute did.
   */
  datatype Attempt = Attempt(
    partialLength: int,
    cancelledBeforeExecute: bool,
    cancelledBeforeHandle: bool,
    transport: Transport)

  /**
   * How sendRequest or handleResponse ends: it returns a (possibly null)
   * ResponseInfo, it throws, or the supplied attempts ran out first.
   */
  datatype Outcome = Done(info: Option<ResponseInfo>) | Raised(exn: Exn) | Unfinished

  /** The calls the engine makes into its environment, in order. */
  datatype EnvCall =
    | Executed(request: Request)                        // client.execute(request, context)
    | RetryAsked(exn: Exn, count: int, answer: bool)    // retryHandler.retryRequest(exn, count, context)

  /** The arguments of execute(...): none at all, or the request and, for a file download, its extras. */
  datatype Params = NoParams | Params(request: Request, download: Option<DownloadArgs>)

  /** params[1..3] of a download: the save path (which may be null), autoResume and autoRename. */
  datatype DownloadArgs = DownloadArgs(savePath: Option<string>, autoResume: bool, autoRename: bool)

  const RANGE_DONE_MESSAGE := "maybe the file has downloaded completely"
  const NULL_RESPONSE_MESSAGE := "response is null"

  /** String.valueOf(Object): the text of a string, or "null" for a null reference. */
  function StringValueOf(s: Option<string>): (t: string)
    ensures s.Some? ==> t == s.value
    ensures s.None? ==> t == "null"
  {
    match s
    case Some(v) => v
    case None => "null"
  }

  /** NotUseApacheRedirectHandler.isRedirectRequested: the transport never follows a redirect itself. */
  function IsRedirectRequested(response: Response): (follow: bool)
    ensures !follow
  {
    false
  }

  /** NotUseApacheRedirectHandler.getLocationURI: the transport is given no redirect target. */
  function GetLocationUri(response: Response): (uri: Option<string>)
    ensures uri == None
  {
    None
  }

  // ---------------------------------------------------------------------------
  // The discipline of the retry loop, stated over the calls one run appends

  predicate Refused(c: EnvCall)
  {
    c.RetryAsked? && !c.answer
  }

  /** No query in `part` was answered "do not retry". */
  predicate NoRefusal(part: seq<EnvCall>)
    decreases |part|
  {
    part == [] || (NoRefusal(part[..|part| - 1]) && !Refused(part[|part| - 1]))
  }

  predicate EndsInRefusal(part: seq<EnvCall>)
  {
    |part| > 0 && Refused(part[|part| - 1])
  }

  /**
   * What a run of the retry loop promises about the calls it appended, read
   * from the last call back: the counter went from `before` to `after`; each
   * query concerns a retryable exception, carries the counter value just
   * incremented to, and records the handler's answer for exactly that
   * exception and count; and only the very last call may be a refused query.
   */
  predicate Disciplined(part: seq<EnvCall>, before: int, after: int, h: (Exn, int) -> bool)
    decreases |part|
  {
    if part == [] then after == before
    else
      var init := part[..|part| - 1];
      NoRefusal(init) &&
      match part[|part| - 1]
      case Executed(_) => Disciplined(init, before, after, h)
      case RetryAsked(e, c, ans) => c == after && Retryable(e) && ans == h(e, c) && Disciplined(init, before, after - 1, h)
  }

  /** The number of retry-handler queries among `part`. */
  function CountAsked(part: seq<EnvCall>): nat
    decreases |part|
  {
    if part == [] then 0
    else CountAsked(part[..|part| - 1]) + (if part[|part| - 1].RetryAsked? then 1 else 0)
  }

  /** The counter moves by exactly one per query: it is never reset and never skips. */
  lemma {:induction false} DisciplinedCount(part: seq<EnvCall>, before: int, after: int, h: (Exn, int) -> bool)
    requires Disciplined(part, before, after, h)
    ensures after == before + CountAsked(part)
    decreases |part|
  {
    if part != [] {
      var init := part[..|part| - 1];
      if part[|part| - 1].RetryAsked? {
        DisciplinedCount(init, before, after - 1, h);
      } else {
        DisciplinedCount(init, before, after, h);
      }
    }
  }

  /**
   * The retry handler is queried with strictly increasing counts, all within
   * (before, after], each time about a retryable exception, and its answer is
   * what the run recorded.
   */
  lemma {:induction false} DisciplinedQueries(part: seq<EnvCall>, before: int, after: int, h: (Exn, int) -> bool)
    requires Disciplined(part, before, after, h)
    ensures forall i | 0 <= i < |part| && part[i].RetryAsked? ::
              before < part[i].count <= after && Retryable(part[i].exn) && part[i].answer == h(part[i].exn, part[i].count)
    ensures forall i, j | 0 <= i < j < |part| && part[i].RetryAsked? && part[j].RetryAsked? ::
              part[i].count < part[j].count
    decreases |part|
  {
    if part != [] {
      var init := part[..|part| - 1];
      var last := part[|part| - 1];
      var a' := if last.RetryAsked? then after - 1 else after;
      DisciplinedQueries(init, before, a', h);
      DisciplinedCount(init, before, a', h);
      assert forall i | 0 <= i < |init| :: part[i] == init[i];
    }
  }

  /** Once the handler says "do not retry", nothing else happens: the refusal is the last call. */
  lemma {:induction false} RefusalIsLast(part: seq<EnvCall>, before: int, after: int, h: (Exn, int) -> bool)
    requires Disciplined(part, before, after, h)
    ensures forall i | 0 <= i < |part| && Refused(part[i]) :: i == |part| - 1
  {
    if part != [] {
      NoRefusalAt(part[..|part| - 1]);
    }
  }

  lemma {:induction false} NoRefusalAt(part: seq<EnvCall>)
    requires NoRefusal(part)
    ensures forall i | 0 <= i < |part| :: !Refused(part[i])
    decreases |part|
  {
    if part != [] {
      NoRefusalAt(part[..|part| - 1]);
    }
  }

  lemma {:induction false} NoRefusalAppend(a: seq<EnvCall>, b: seq<EnvCall>)
    requires NoRefusal(a) && NoRefusal(b)
    ensures NoRefusal(a + b)
    decreases |b|
  {
    if b == [] {
      assert a + b == a;
    } else {
      assert (a + b)[..|a + b| - 1] == a + b[..|b| - 1];
      NoRefusalAppend(a, b[..|b| - 1]);
    }
  }

  /** Refusal-free calls followed by a disciplined run form a disciplined run. */
  lemma {:induction false} DisciplineAppend(a: seq<EnvCall>, b: seq<EnvCall>, c0: int, c1: int, c2: int, h: (Exn, int) -> bool)
    requires Disciplined(a, c0, c1, h) && NoRefusal(a)
    requires Disciplined(b, c1, c2, h)
    ensures Disciplined(a + b, c0, c2, h)
    ensures EndsInRefusal(a + b) <==> EndsInRefusal(b)
    ensures NoRefusal(b) ==> NoRefusal(a + b)
    decreases |b|
  {
    if b == [] {
      assert a + b == a;
    } else {
      var b' := b[..|b| - 1];
      assert (a + b)[..|a + b| - 1] == a + b';
      assert (a + b)[|a + b| - 1] == b[|b| - 1];
      var c1' := if b[|b| - 1].RetryAsked? then c2 - 1 else c2;
      DisciplineAppend(a, b', c0, c1, c1', h);
      NoRefusalAppend(a, b');
      if NoRefusal(b) {
        NoRefusalAppend(a, b);
      }
    }
  }

  /**
   * How one pass of the retry loop ends once execute and handleResponse have
   * given `o` without going back to sendRequest: a result ends the loop with
   * it; an HttpException or RuntimeException ends it as OTHER_EXCEPTION with
   * that cause and no query; any other exception moves the counter on by
   * one and asks the handler, and a "no" ends the loop with the exception's
   * category. `run` is what the pass appends to the log.
   */
  predicate PassEnds(o: Outcome, sent: Request, before: int, h: (Exn, int) -> bool,
                     r: Outcome, retry: bool, run: seq<EnvCall>, after: int)
  {
    match o
    case Raised(x) =>
      if Retryable(x) then
        && after == before + 1 && retry == h(x, after)
        && run == [Executed(sent), RetryAsked(x, after, retry)]
        && (!retry ==> r == Raised(Http(Categorized(Classify(x), None))))
      else
        !retry && after == before && run == [Executed(sent)] && r == Raised(Http(Categorized(OtherException, Some(x))))
    case _ =>
      !retry && after == before && run == [Executed(sent)] && r == o
  }

  /** What handleResponse reads of the download setup: isDownloadingFile, fileSavePath, autoResume and autoRename. */
  datatype Mode = Mode(download: bool, savePath: Option<string>, resume: bool, rename: bool)

  /** The handler fields a run of sendRequest reads and may update: the download setup, isUploading, requestMethod and retriedCount. */
  datatype Fields = Fields(mode: Mode, uploading: bool, verb: string, count: int)

  /** The cache as a run of sendRequest sees it: requestUrl, the methods with caching enabled, and the stored texts. */
  datatype CacheView = CacheView(url: string, enabled: set<string>, entries: map<string, string>)

  /** The cache answers a request with method `verb`. */
  predicate CachedFor(verb: string, v: CacheView)
  {
    verb in v.enabled && v.url in v.entries
  }

  /** The request a pass sends: `current` with the resume header for the partial file the attempt finds. */
  function Sent(current: Request, m: Mode, a: Attempt): Request
  {
    WithResume(current, m.resume, m.download, a.partialLength)
  }

  /** handleResponse reads the entity: a non-null response below 300 that has one, seen uncancelled. */
  predicate ReadsEntity(response: Option<Response>, cancelled: bool)
  {
    response.Some? && !cancelled && Dispatch(response.value.status) == ToSuccess && response.value.entity.Some?
  }

  /**
   * The fields after handleResponse settles without a redirect: reading an
   * entity ends the upload and, for a download, keeps autoResume only when
   * the server supports ranges; every other path changes none of them.
   */
  function AfterHandle(response: Option<Response>, cancelled: bool, f: Fields): (g: Fields)
    ensures g.verb == f.verb && g.count == f.count
    ensures g.mode == f.mode.(resume := g.mode.resume)
    ensures g.uploading == (f.uploading && !ReadsEntity(response, cancelled))
    ensures g.mode.resume == (f.mode.resume && (ReadsEntity(response, cancelled) && f.mode.download ==> response.value.supportsRange))
  {
    if ReadsEntity(response, cancelled) then
      f.(uploading := false, mode := f.mode.(resume := if f.mode.download then f.mode.resume && response.value.supportsRange else f.mode.resume))
    else f
  }

  /** The fields after the try block of a pass that did not follow a redirect: execute throwing changes none. */
  function AfterTransport(a: Attempt, f: Fields): Fields
  {
    match a.transport
    case Threw(_) => f
    case Returned(response) => AfterHandle(response, a.cancelledBeforeHandle, f)
  }

  /** What sendRequest's catch clauses make of what a nested sendRequest threw: OTHER_EXCEPTION with it as the cause. */
  function Rethrown(o: Outcome): Outcome
  {
    if o.Raised? then Raised(Http(Categorized(OtherException, Some(o.exn)))) else o
  }

  /** The outcome of the nested sendRequest behind an outcome that went through Rethrown. */
  function Inner(o: Outcome): Outcome
  {
    match o
    case Raised(Http(Categorized(OtherException, Some(x)))) => Raised(x)
    case _ => o
  }

  /** The fields after a round whose pass ended in an accepted retry. */
  function RetryFields(current: Request, f: Fields, a: Attempt): Fields
  {
    AfterTransport(a, f.(verb := Sent(current, f.mode, a).verb)).(count := f.count + 1)
  }

  /** `r` returns a ResponseInfo read from the network, not from the cache, whose result is text. */
  predicate FreshText(r: Outcome)
  {
    r.Done? && r.info.Some? && !r.info.value.fromCache && r.info.value.result.Some? && r.info.value.result.value.Text?
  }

  /**
   * The cache entries after a run of sendRequest that gave `r`: a fresh text
   * outside a download is stored under `url` when caching is enabled for
   * `verb`; nothing else changes them, so a change is always such a store.
   */
  function StoredAfter(entries: map<string, string>, enabled: set<string>, url: string, verb: string, download: bool,
                       r: Outcome): (e: map<string, string>)
    ensures e != entries ==>
              && FreshText(r) && !download && verb in enabled && url in e
              && e == entries[url := e[url]] && r.info.value.result == Some(Text(e[url]))
    ensures FreshText(r) && !download && verb in enabled ==> url in e && e[url] == r.info.value.result.value.text
    ensures !(FreshText(r) && !download && verb in enabled) ==> e == entries
  {
    if FreshText(r) && !download && verb in enabled then entries[url := r.info.value.result.value.text] else entries
  }

  lemma AppendAssoc(a: seq<EnvCall>, b: seq<EnvCall>, c: seq<EnvCall>)
    ensures a + b + c == a + (b + c)
  {
  }

  /** One more call after a refusal-free disciplined run. */
  lemma ExtendDiscipline(a: seq<EnvCall>, x: EnvCall, c0: int, c1: int, c2: int, h: (Exn, int) -> bool)
    requires Disciplined(a, c0, c1, h) && NoRefusal(a)
    requires x.Executed? ==> c2 == c1
    requires x.RetryAsked? ==> c2 == c1 + 1 && x.count == c2 && Retryable(x.exn) && x.answer == h(x.exn, x.count)
    ensures Disciplined(a + [x], c0, c2, h)
    ensures NoRefusal(a + [x]) <==> !Refused(x)
    ensures EndsInRefusal(a + [x]) <==> Refused(x)
  {
    assert (a + [x])[..|a|] == a;
  }

  /**
   * The request engine. `hasCallback` stands for callback != null and `rate`
   * for callback.getRate(); `calls` logs the engine's calls into the
   * transport and the retry handler.
   */
  class HttpHandler {
    const cache: HttpCache
    const retryHandler: (Exn, int) -> bool
    const redirectHandler: Response -> Option<Request>
    const hasCallback: bool
    const rate: int
    const expiry: int

    var state: State
    var retriedCount: int
    var requestUrl: string
    var requestMethod: string
    var request: Option<Request>
    var isUploading: bool
    var fileSavePath: Option<string>
    var isDownloadingFile: bool
    var autoResume: bool
    var autoRename: bool
    var lastUpdateTime: int
    var taskCancelled: bool    // the task's own cancelled flag, read by isCancelled()
    var aborted: set<Request>  // the requests on which abort() took effect: request.isAborted()
    var published: seq<Event>
    var delivered: seq<Callback>
    ghost var calls: seq<EnvCall>
    // the clock readings of unforced updates since lastUpdateTime was last set from the clock, and
    // those of them that published
    ghost var throttleStart: int
    ghost var unforcedTimes: seq<int>
    ghost var emitted: seq<int>

    /** The constructor: a fresh task in WAITING with nothing retried, published or delivered. */
    constructor (cache: HttpCache, retryHandler: (Exn, int) -> bool, redirectHandler: Response -> Option<Request>,
                 hasCallback: bool, rate: int, defaultExpiry: int)
      ensures this.cache == cache && this.retryHandler == retryHandler && this.redirectHandler == redirectHandler
      ensures this.hasCallback == hasCallback && this.rate == rate && expiry == defaultExpiry
      ensures state == Waiting && retriedCount == 0 && request == None
      ensures isUploading && !isDownloadingFile && !autoResume && !autoRename && fileSavePath == None
      ensures !taskCancelled && aborted == {} && published == [] && delivered == [] && calls == []
      ensures Throttled() && emitted == []
    {
      this.cache := cache;
      this.retryHandler := retryHandler;
      this.redirectHandler := redirectHandler;
      this.hasCallback := hasCallback;
      this.rate := rate;
      this.expiry := defaultExpiry;
      state := Waiting;
      retriedCount := 0;
      requestUrl := "";
      requestMethod := "";
      request := None;
      isUploading := true;
      fileSavePath := None;
      isDownloadingFile := false;
      autoResume := false;
      autoRename := false;
      lastUpdateTime := 0;
      taskCancelled := false;
      aborted := {};
      published := [];
      delivered := [];
      calls := [];
      throttleStart := 0;
      unforcedTimes := [];
      emitted := [];
    }

    /**
     * The throttle's bookkeeping: the unforced publications are exactly what
     * Emitted gives for the clock readings since the start, and lastUpdateTime
     * is the last of them.
     */
    ghost predicate Throttled()
      reads this`throttleStart, this`unforcedTimes, this`emitted, this`lastUpdateTime
    {
      emitted == Emitted(throttleStart, rate, unforcedTimes) && lastUpdateTime == LastEmitted(throttleStart, rate, unforcedTimes)
    }

    /** The cache would answer a request with method `verb` for requestUrl. */
    predicate CacheHit(verb: string)
      reads this, cache
    {
      cache.IsEnabled(verb) && requestUrl in cache.entries
    }

    /** The download setup as handleResponse reads it. */
    function ModeNow(): Mode
      reads this`isDownloadingFile, this`fileSavePath, this`autoResume, this`autoRename
    {
      Mode(isDownloadingFile, fileSavePath, autoResume, autoRename)
    }

    /** The fields a run of sendRequest reads and may update. */
    function FieldsNow(): Fields
      reads this`isDownloadingFile, this`fileSavePath, this`autoResume, this`autoRename
      reads this`isUploading, this`requestMethod, this`retriedCount
    {
      Fields(ModeNow(), isUploading, requestMethod, retriedCount)
    }

    /** The cache as sendRequest consults it for requestUrl. */
    function ViewNow(): CacheView
      reads this`requestUrl, cache
    {
      CacheView(requestUrl, cache.enabledMethods, cache.entries)
    }

    /**
     * What handleResponse returns or throws with the download setup `m`,
     * whenever it does not go back to sendRequest; None exactly for a
     * 301/302 whose redirect handler gives a request to follow.
     */
    function Handled(response: Option<Response>, cancelled: bool, m: Mode): (o: Option<Outcome>)
      ensures o.None? <==>
                response.Some? && !cancelled && Dispatch(response.value.status) == ToRedirect
                && redirectHandler(response.value).Some?
      ensures o.Some? ==> o.value.Done? || o.value.Raised?
      ensures o.Some? && o.value.Raised? && !o.value.exn.Http? ==>
                response.Some? && !cancelled && response.value.entity == Some(ReadFault(o.value.exn))
    {
      match response
      case None => Some(Raised(Http(Plain(NULL_RESPONSE_MESSAGE))))
      case Some(resp) =>
        if cancelled then Some(Done(None))
        else match Dispatch(resp.status)
          case ToSuccess =>
            (match resp.entity
             case None => Some(Done(Some(ResponseInfo(response, None, false))))
             case Some(ReadFault(e)) => Some(Raised(e))
             case Some(Body(text)) =>
               if m.download then
                 Some(Done(Some(ResponseInfo(response,
                   Some(File(m.savePath, m.resume && resp.supportsRange, if m.rename then resp.fileName else None)),
                   false))))
               else Some(Done(Some(ResponseInfo(response, Some(Text(text)), false)))))
          case ToRedirect =>
            if redirectHandler(resp).Some? then None else Some(Done(None))
          case RangeComplete => Some(Raised(Http(Status(416, RANGE_DONE_MESSAGE))))
          case StatusError => Some(Raised(Http(Status(resp.status, resp.reason))))
    }

    /**
     * handleResponse status by status, for the entry fields `f`: a null
     * response, a cancelled task, a 2xx with or without an entity, a
     * redirect with or without a request from the handler, 416 and every
     * other status of 300 or more. A 2xx entity clears isUploading and, in a
     * download, turns autoResume off unless the server supports ranges; the
     * file result carries that updated flag.
     */
    lemma HandledOutcomes(response: Option<Response>, cancelled: bool, f: Fields)
      ensures response.None? ==> Handled(response, cancelled, f.mode) == Some(Raised(Http(Plain(NULL_RESPONSE_MESSAGE))))
      ensures response.Some? && cancelled ==> Handled(response, cancelled, f.mode) == Some(Done(None))
      ensures response.Some? && !cancelled && Dispatch(response.value.status) == ToSuccess ==>
                var g := AfterHandle(response, cancelled, f);
                && (response.value.entity.Some? ==> !g.uploading)
                && match response.value.entity
                   case None =>
                     Handled(response, cancelled, f.mode) == Some(Done(Some(ResponseInfo(response, None, false)))) && g == f
                   case Some(ReadFault(e)) =>
                     Handled(response, cancelled, f.mode) == Some(Raised(e))
                   case Some(Body(text)) =>
                     if f.mode.download then
                       && g.mode.resume == (f.mode.resume && response.value.supportsRange)
                       && Handled(response, cancelled, f.mode) ==
                          Some(Done(Some(ResponseInfo(response,
                            Some(File(f.mode.savePath, g.mode.resume, if f.mode.rename then response.value.fileName else None)), false))))
                     else
                       && g.mode.resume == f.mode.resume
                       && Handled(response, cancelled, f.mode) == Some(Done(Some(ResponseInfo(response, Some(Text(text)), false))))
      ensures response.Some? && !cancelled && Dispatch(response.value.status) == ToRedirect ==>
                Handled(response, cancelled, f.mode) == if redirectHandler(response.value).Some? then None else Some(Done(None))
      ensures response.Some? && !cancelled && Dispatch(response.value.status) == RangeComplete ==>
                Handled(response, cancelled, f.mode) == Some(Raised(Http(Status(416, RANGE_DONE_MESSAGE))))
      ensures response.Some? && !cancelled && Dispatch(response.value.status) == StatusError ==>
                Handled(response, cancelled, f.mode) == Some(Raised(Http(Status(response.value.status, response.value.reason))))
    {
    }

    /** The request handleResponse goes back to sendRequest with on this attempt, if any. */
    function Redirect(a: Attempt): (next: Option<Request>)
      ensures next.Some? ==>
                && a.transport.Returned? && a.transport.response.Some? && !a.cancelledBeforeHandle
                && Dispatch(a.transport.response.value.status) == ToRedirect && next == redirectHandler(a.transport.response.value)
      ensures next.None? && a.transport.Returned? && a.transport.response.Some? && !a.cancelledBeforeHandle ==>
                Dispatch(a.transport.response.value.status) != ToRedirect || redirectHandler(a.transport.response.value).None?
    {
      match a.transport
      case Returned(Some(resp)) =>
        if !a.cancelledBeforeHandle && Dispatch(resp.status) == ToRedirect then redirectHandler(resp) else None
      case _ => None
    }

    /** What the try block of a pass gives for `attempt` without a redirect: execute's exception, or Handled. */
    function Immediate(attempt: Attempt, m: Mode): (o: Option<Outcome>)
      ensures attempt.transport.Threw? ==> o == Some(Raised(attempt.transport.exn))
      ensures attempt.transport.Returned? ==> o == Handled(attempt.transport.response, attempt.cancelledBeforeHandle, m)
      ensures o.None? <==> Redirect(attempt).Some?
    {
      match attempt.transport
      case Threw(e) => Some(Raised(e))
      case Returned(response) => Handled(response, attempt.cancelledBeforeHandle, m)
    }

    /**
     * The round on attempt `a` goes round again: the cache does not answer,
     * the task is not seen cancelled, and the pass gives a retryable
     * exception whose retry the handler accepts with the count moved on.
     */
    predicate Retries(current: Request, f: Fields, v: CacheView, a: Attempt)
    {
      && !CachedFor(Sent(current, f.mode, a).verb, v) && !a.cancelledBeforeExecute
      && match Immediate(a, f.mode)
         case Some(Raised(x)) => Retryable(x) && retryHandler(x, f.count + 1)
         case _ => false
    }

    /** The two calls of a round that Retries: the execute and the accepted query. */
    function RetryRun(current: Request, f: Fields, a: Attempt): seq<EnvCall>
    {
      match Immediate(a, f.mode)
      case Some(Raised(x)) => [Executed(Sent(current, f.mode, a)), RetryAsked(x, f.count + 1, true)]
      case _ => []
    }

    /**
     * A round of sendRequest's loop that ends the loop, on the attempts
     * `script` from the request `current` and the fields `f`: the cache
     * answers; or the task is seen cancelled and the round returns null; or
     * execute and handleResponse give an outcome, which ends the loop as
     * PassEnds says; or a followed redirect runs a nested sendRequest on the
     * remaining attempts, and what that throws comes back as OTHER_EXCEPTION.
     * Either way requestMethod is the verb of the request sent, and `g` holds
     * the fields afterwards.
     */
    ghost predicate Settles(current: Request, f: Fields, v: CacheView, script: seq<Attempt>,
                            r: Outcome, rest: seq<Attempt>, run: seq<EnvCall>, g: Fields)
      requires script != []
      decreases |script|, 0
    {
      var a := script[0];
      var sent := Sent(current, f.mode, a);
      var f' := f.(verb := sent.verb);
      if CachedFor(sent.verb, v) then
        r == Done(Some(ResponseInfo(None, Some(Text(v.entries[v.url])), true))) && rest == script[1..] && run == [] && g == f'
      else if a.cancelledBeforeExecute then
        r == Done(None) && rest == script[1..] && run == [] && g == f'
      else match Immediate(a, f.mode)
        case None =>
          && |run| > 0 && run[0] == Executed(sent) && r == Rethrown(Inner(r))
          && Passes(Redirect(a).value, f', v, script[1..], Inner(r), rest, run[1..], g)
        case Some(o) =>
          && PassEnds(o, sent, f.count, retryHandler, r, false, run, g.count) && rest == script[1..]
          && g == AfterTransport(a, f').(count := g.count)
    }

    /**
     * sendRequest on the attempts `script`, from the request `current`, the
     * fields `f` and the cache `v`: `r` is what it returns or throws, `rest`
     * the attempts it left, `run` the calls it made and `g` the fields it
     * leaves. Rounds that end in an accepted retry send the same request
     * again, with the header re-set; the first round that does not ends the
     * run as Settles says; the attempts running out gives Unfinished.
     */
    ghost predicate Passes(current: Request, f: Fields, v: CacheView, script: seq<Attempt>,
                           r: Outcome, rest: seq<Attempt>, run: seq<EnvCall>, g: Fields)
      decreases |script|, 2
    {
      if script == [] then r == Unfinished && rest == [] && run == [] && g == f
      else Proceeds(current, f, v, script, r, rest, run, g)
    }

    /** Passes once there is an attempt: a retried round, or the round that settles the run. */
    ghost predicate Proceeds(current: Request, f: Fields, v: CacheView, script: seq<Attempt>,
                         r: Outcome, rest: seq<Attempt>, run: seq<EnvCall>, g: Fields)
      requires script != []
      decreases |script|, 1
    {
      if Retries(current, f, v, script[0]) then
        && |run| >= 2 && run[..2] == RetryRun(current, f, script[0])
        && Passes(Sent(current, f.mode, script[0]), RetryFields(current, f, script[0]), v, script[1..], r, rest, run[2..], g)
      else Settles(current, f, v, script, r, rest, run, g)
    }

    /**
     * The loop so far: every attempt of `script` before `rest` ended in an
     * accepted retry, taking the request from `start` to `current` and the
     * fields from `f` to `g`, with the calls `pre`.
     */
    ghost predicate Retried(start: Request, f: Fields, v: CacheView, script: seq<Attempt>,
                            current: Request, g: Fields, rest: seq<Attempt>, pre: seq<EnvCall>)
      decreases |script|
    {
      if |script| <= |rest| then script == rest && current == start && g == f && pre == []
      else
        && Retries(start, f, v, script[0]) && |pre| >= 2 && pre[..2] == RetryRun(start, f, script[0])
        && Retried(Sent(start, f.mode, script[0]), RetryFields(start, f, script[0]), v, script[1..], current, g, rest, pre[2..])
    }

    lemma {:induction false} RetriedExtend(start: Request, f: Fields, v: CacheView, script: seq<Attempt>,
                                           current: Request, g: Fields, rest: seq<Attempt>, pre: seq<EnvCall>)
      requires Retried(start, f, v, script, current, g, rest, pre)
      requires rest != [] && Retries(current, g, v, rest[0])
      ensures Retried(start, f, v, script, Sent(current, g.mode, rest[0]), RetryFields(current, g, rest[0]), rest[1..],
                      pre + RetryRun(current, g, rest[0]))
      decreases |script|
    {
      var step := RetryRun(current, g, rest[0]);
      if |script| <= |rest| {
        assert pre + step == step;
        assert step[2..] == [];
      } else {
        RetriedExtend(Sent(start, f.mode, script[0]), RetryFields(start, f, script[0]), v, script[1..], current, g, rest, pre[2..]);
        assert (pre + step)[..2] == pre[..2];
        assert (pre + step)[2..] == pre[2..] + step;
      }
    }

    /** A loop that retried its way from `start` to `current` and then ran to its end is one run from `start`. */
    lemma {:induction false} RetriedThenPasses(start: Request, f: Fields, v: CacheView, script: seq<Attempt>,
                                               current: Request, g: Fields, rest: seq<Attempt>, pre: seq<EnvCall>,
                                               r: Outcome, left: seq<Attempt>, tail: seq<EnvCall>, h: Fields)
      requires Retried(start, f, v, script, current, g, rest, pre)
      requires Passes(current, g, v, rest, r, left, tail, h)
      ensures Passes(start, f, v, script, r, left, pre + tail, h)
      decreases |script|
    {
      if |script| <= |rest| {
        assert pre + tail == tail;
      } else {
        RetriedThenPasses(Sent(start, f.mode, script[0]), RetryFields(start, f, script[0]), v, script[1..],
                          current, g, rest, pre[2..], r, left, tail, h);
        assert (pre + tail)[..2] == pre[..2];
        assert (pre + tail)[2..] == pre[2..] + tail;
      }
    }

    /**
     * How the loop ends: either the attempts ran out after the retried
     * rounds, or a round from `current` did not go again and settled.
     */
    lemma {:induction false} LoopEnds(start: Request, f: Fields, v: CacheView, script: seq<Attempt>,
                                      current: Request, g: Fields, rest: seq<Attempt>, pre: seq<EnvCall>,
                                      r: Outcome, left: seq<Attempt>, tail: seq<EnvCall>, h: Fields)
      requires Retried(start, f, v, script, current, g, rest, pre)
      requires rest == [] ==> r == Unfinished && left == [] && tail == [] && h == g
      requires rest != [] ==> !Retries(current, g, v, rest[0]) && Settles(current, g, v, rest, r, left, tail, h)
      ensures Passes(start, f, v, script, r, left, pre + tail, h)
    {
      assert Passes(current, g, v, rest, r, left, tail, h);
      RetriedThenPasses(start, f, v, script, current, g, rest, pre, r, left, tail, h);
    }

    /**
     * How every run begins: the cache is consulted first and answers with no
     * call; otherwise a task seen cancelled returns null with no call; and
     * otherwise the first call is the execute of the request with its
     * resume header.
     */
    lemma PassesStart(req: Request, f: Fields, v: CacheView, script: seq<Attempt>,
                      r: Outcome, rest: seq<Attempt>, run: seq<EnvCall>, g: Fields)
      requires Passes(req, f, v, script, r, rest, run, g) && script != []
      ensures CachedFor(req.verb, v) ==>
                && r == Done(Some(ResponseInfo(None, Some(Text(v.entries[v.url])), true)))
                && rest == script[1..] && run == [] && g.count == f.count
      ensures !CachedFor(req.verb, v) && script[0].cancelledBeforeExecute ==>
                r == Done(None) && rest == script[1..] && run == [] && g.count == f.count
      ensures !CachedFor(req.verb, v) && !script[0].cancelledBeforeExecute ==>
                |run| > 0 && run[0] == Executed(Sent(req, f.mode, script[0]))
    {
      assert Proceeds(req, f, v, script, r, rest, run, g);
      if Retries(req, f, v, script[0]) {
        assert run[..2][0] == run[0];
      } else {
        assert Settles(req, f, v, script, r, rest, run, g);
      }
    }

    /**
     * sendRequest: the retry loop. Each round sets the resume header, serves
     * the cache if it can, and otherwise (unless cancelled) executes the
     * request and handles the response; whatever that throws goes to
     * Recover. `run` is the sequence of calls the loop appends to `calls`.
     */
    method SendRequest(req: Request, script: seq<Attempt>) returns (r: Outcome, rest: seq<Attempt>, ghost run: seq<EnvCall>)
      modifies this`retriedCount, this`requestMethod, this`isUploading, this`autoResume, this`calls, cache`entries
      decreases |script|, 2
      ensures |rest| <= |script|
      ensures autoResume ==> old(autoResume)
      ensures calls == old(calls) + run
      // the whole run, round by round, and the fields it leaves
      ensures Passes(req, old(FieldsNow()), old(ViewNow()), script, r, rest, run, FieldsNow())
      ensures Disciplined(run, old(retriedCount), retriedCount, retryHandler)
      ensures EndsInRefusal(run) ==> r.Raised?
      ensures r.Raised? ==> r.exn.Http? && r.exn.err.Categorized?
      ensures r.Raised? && r.exn.err.cause.None? ==>
                EndsInRefusal(run) && r.exn.err.category == Classify(run[|run| - 1].exn)
      ensures r.Raised? && r.exn.err.cause.Some? ==>
                r.exn.err.category == OtherException && !Retryable(r.exn.err.cause.value)
      // the cache is consulted first, before the cancellation check and before any network call
      ensures |script| > 0 && old(CacheHit(req.verb)) ==>
                && r == Done(Some(ResponseInfo(None, Some(Text(old(cache.entries[requestUrl]))), true)))
                && rest == script[1..] && run == [] && retriedCount == old(retriedCount)
      // otherwise the first pass, unless cancelled, executes the request with its resume header
      ensures |script| > 0 && !old(CacheHit(req.verb)) && !script[0].cancelledBeforeExecute ==>
                |run| > 0 && run[0] == Executed(WithResume(req, old(autoResume), isDownloadingFile, script[0].partialLength))
      // a pass that sees the task cancelled before execute returns null
      ensures |script| > 0 && !old(CacheHit(req.verb)) && script[0].cancelledBeforeExecute ==>
                r == Done(None) && rest == script[1..] && run == [] && retriedCount == old(retriedCount)
      // a fresh text result is stored under requestUrl when caching is enabled, and nothing else changes the cache
      ensures cache.entries == StoredAfter(old(cache.entries), cache.enabledMethods, requestUrl, requestMethod, isDownloadingFile, r)
    {
      ghost var f0 := FieldsNow();
      ghost var v0 := ViewNow();
      r, rest, run := RetryLoop(req, script);
      if script != [] {
        PassesStart(req, f0, v0, script, r, rest, run, FieldsNow());
      }
    }

    /**
     * Two sendRequest calls on the same request: when the first returns a
     * fresh text and stores it (not a download, caching enabled for the
     * method it ended with), the second is answered from the cache on its
     * first pass, with that text and no call to the transport.
     */
    method SendAgainHitsCache(req: Request, first: seq<Attempt>, second: seq<Attempt>)
      returns (r1: Outcome, r2: Outcome, ghost rest1: seq<Attempt>, ghost g1: Fields, ghost run1: seq<EnvCall>, ghost run2: seq<EnvCall>)
      modifies this`retriedCount, this`requestMethod, this`isUploading, this`autoResume, this`calls, cache`entries
      ensures Passes(req, old(FieldsNow()), old(ViewNow()), first, r1, rest1, run1, g1)
      ensures calls == old(calls) + run1 + run2
      ensures second != [] && FreshText(r1) && !isDownloadingFile && g1.verb in cache.enabledMethods
              && req.verb in cache.enabledMethods ==>
                r2 == Done(Some(ResponseInfo(None, Some(Text(r1.info.value.result.value.text)), true))) && run2 == []
    {
      ghost var f0, v0 := FieldsNow(), ViewNow();
      r1, rest1, run1 := SendRequest(req, first);
      g1 := FieldsNow();
      assert Passes(req, f0, v0, first, r1, rest1, run1, g1);
      var rest2;
      r2, rest2, run2 := SendRequest(req, second);
    }

    /**
     * The while loop of sendRequest: rounds run until one does not go round
     * again, or the attempts run out.
     */
    method RetryLoop(req: Request, script: seq<Attempt>) returns (r: Outcome, rest: seq<Attempt>, ghost run: seq<EnvCall>)
      modifies this`retriedCount, this`requestMethod, this`isUploading, this`autoResume, this`calls, cache`entries
      decreases |script|, 1
      ensures |rest| <= |script|
      ensures autoResume ==> old(autoResume)
      ensures calls == old(calls) + run
      ensures Passes(req, old(FieldsNow()), old(ViewNow()), script, r, rest, run, FieldsNow())
      ensures Disciplined(run, old(retriedCount), retriedCount, retryHandler)
      ensures EndsInRefusal(run) ==> r.Raised?
      ensures r.Raised? ==> r.exn.Http? && r.exn.err.Categorized?
      ensures r.Raised? && r.exn.err.cause.None? ==>
                EndsInRefusal(run) && r.exn.err.category == Classify(run[|run| - 1].exn)
      ensures r.Raised? && r.exn.err.cause.Some? ==>
                r.exn.err.category == OtherException && !Retryable(r.exn.err.cause.value)
      ensures cache.entries == StoredAfter(old(cache.entries), cache.enabledMethods, requestUrl, requestMethod, isDownloadingFile, r)
    {
      ghost var f0 := FieldsNow();
      ghost var v0 := ViewNow();
      ghost var c0 := retriedCount;
      var current := req;
      rest := script;
      run := [];
      // the round that ends the loop: the attempts it started from, the fields and count before it, its calls
      ghost var from: seq<Attempt>, g: Fields, mid: int, tail: seq<EnvCall>;
      while true
        invariant |rest| <= |script|
        invariant Retried(req, f0, v0, script, current, FieldsNow(), rest, run)
        invariant ViewNow() == v0 && cache.entries == old(cache.entries)
        invariant autoResume ==> old(autoResume)
        invariant calls == old(calls) + run
        invariant Disciplined(run, c0, retriedCount, retryHandler) && NoRefusal(run)
        decreases |rest|
      {
        from, g, mid := rest, FieldsNow(), retriedCount;
        if rest == [] {
          r, tail := Unfinished, [];
          assert run + tail == run;
          break;
        }
        var again, sent;
        r, again, sent, rest, tail := Round(current, rest);
        AppendAssoc(old(calls), run, tail);
        if !again {
          break;
        }
        RetriedExtend(req, f0, v0, script, current, g, from, run);
        DisciplineAppend(run, tail, c0, mid, retriedCount, retryHandler);
        run := run + tail;
        current := sent;
      }
      LoopEnds(req, f0, v0, script, current, g, from, run, r, rest, tail, FieldsNow());
      DisciplineAppend(run, tail, c0, mid, retriedCount, retryHandler);
      if tail != [] {
        assert (run + tail)[|run + tail| - 1] == tail[|tail| - 1];
      }
      run := run + tail;
    }


    /**
     * One round of sendRequest's loop on the attempts `s`: the resume header
     * is set on the request, the cache is served if it can be, and otherwise
     * (unless cancelled) the pass runs. `sent` is the request with its header,
     * and `again` says whether the loop goes round again.
     */
    /**
     * What a pass past the cache and the cancellation check gives, read
     * against Passes: the round goes again exactly when Retries holds, and
     * otherwise it settles the run.
     */
    lemma {:induction false} PassOutcome(current: Request, f: Fields, v: CacheView, s: seq<Attempt>,
                                         r: Outcome, retry: bool, rest: seq<Attempt>, run: seq<EnvCall>, g: Fields)
      requires s != []
      requires !CachedFor(Sent(current, f.mode, s[0]).verb, v) && !s[0].cancelledBeforeExecute
      requires |run| > 0 && run[0] == Executed(Sent(current, f.mode, s[0]))
      requires Immediate(s[0], f.mode).Some? ==>
                 && PassEnds(Immediate(s[0], f.mode).value, Sent(current, f.mode, s[0]), f.count, retryHandler, r, retry, run, g.count)
                 && rest == s[1..] && g == AfterTransport(s[0], f.(verb := Sent(current, f.mode, s[0]).verb)).(count := g.count)
      requires Immediate(s[0], f.mode).None? ==>
                 && !retry && r == Rethrown(Inner(r))
                 && Passes(Redirect(s[0]).value, f.(verb := Sent(current, f.mode, s[0]).verb), v, s[1..], Inner(r), rest, run[1..], g)
      ensures retry ==>
                && Retries(current, f, v, s[0]) && run == RetryRun(current, f, s[0])
                && rest == s[1..] && g == RetryFields(current, f, s[0])
      ensures !retry ==> !Retries(current, f, v, s[0]) && Settles(current, f, v, s, r, rest, run, g)
    {
      match Immediate(s[0], f.mode)
      case None =>
      case Some(o) =>
        if o.Raised? && Retryable(o.exn) {
          assert retry == retryHandler(o.exn, f.count + 1);
        }
    }

    method Round(current: Request, s: seq<Attempt>)
      returns (r: Outcome, again: bool, sent: Request, rest: seq<Attempt>, ghost run: seq<EnvCall>)
      requires s != []
      modifies this`retriedCount, this`requestMethod, this`isUploading, this`autoResume, this`calls, cache`entries
      decreases |s|, 0
      ensures sent == Sent(current, old(ModeNow()), s[0])
      ensures |rest| < |s|
      ensures autoResume ==> old(autoResume)
      ensures calls == old(calls) + run
      ensures Disciplined(run, old(retriedCount), retriedCount, retryHandler)
      // a round goes round again exactly when Retries says so, and then it made the execute and the accepted query
      ensures again ==>
                && Retries(current, old(FieldsNow()), old(ViewNow()), s[0])
                && run == RetryRun(current, old(FieldsNow()), s[0]) && rest == s[1..]
                && FieldsNow() == RetryFields(current, old(FieldsNow()), s[0])
                && NoRefusal(run) && cache.entries == old(cache.entries)
      ensures !again ==>
                && !Retries(current, old(FieldsNow()), old(ViewNow()), s[0])
                && Settles(current, old(FieldsNow()), old(ViewNow()), s, r, rest, run, FieldsNow())
      ensures EndsInRefusal(run) ==> !again && r.Raised?
      ensures !again && r.Raised? ==> r.exn.Http? && r.exn.err.Categorized?
      ensures !again && r.Raised? && r.exn.err.cause.None? ==>
                EndsInRefusal(run) && r.exn.err.category == Classify(run[|run| - 1].exn)
      ensures !again && r.Raised? && r.exn.err.cause.Some? ==>
                r.exn.err.category == OtherException && !Retryable(r.exn.err.cause.value)
      ensures cache.entries == StoredAfter(old(cache.entries), cache.enabledMethods, requestUrl, requestMethod, isDownloadingFile, r)
    {
      ghost var f, v := FieldsNow(), ViewNow();
      sent := WithResume(current, autoResume, isDownloadingFile, s[0].partialLength);
      requestMethod := sent.verb;
      assert FieldsNow() == f.(verb := sent.verb);
      if cache.IsEnabled(requestMethod) && requestUrl in cache.entries {
        return Done(Some(ResponseInfo(None, Some(Text(cache.entries[requestUrl])), true))), false, sent, s[1..], [];
      }
      if s[0].cancelledBeforeExecute {
        return Done(None), false, sent, s[1..], [];
      }
      r, again, rest, run := Try(sent, s[0], s[1..]);
      PassOutcome(current, f, v, s, r, again, rest, run, FieldsNow());
    }

    /**
     * One pass of the try block and its catch clauses, after the cache and
     * the cancellation check: execute and handle the response, and on an
     * exception classify it and ask the retry handler. `retry` says whether
     * the loop goes round again; otherwise `r` is what sendRequest returns or
     * throws.
     */
    method Try(current: Request, attempt: Attempt, script: seq<Attempt>)
      returns (r: Outcome, retry: bool, rest: seq<Attempt>, ghost run: seq<EnvCall>)
      modifies this`retriedCount, this`requestMethod, this`isUploading, this`autoResume, this`calls, cache`entries
      decreases |script|, 5
      ensures |rest| <= |script|
      ensures autoResume ==> old(autoResume)
      ensures calls == old(calls) + run
      ensures |run| > 0 && run[0] == Executed(current)
      ensures Disciplined(run, old(retriedCount), retriedCount, retryHandler)
      ensures Immediate(attempt, old(ModeNow())).Some? ==>
                && PassEnds(Immediate(attempt, old(ModeNow())).value, current, old(retriedCount), retryHandler, r, retry, run, retriedCount)
                && rest == script && FieldsNow() == AfterTransport(attempt, old(FieldsNow())).(count := retriedCount)
      // a followed redirect: the nested run's exception is rethrown as OTHER_EXCEPTION
      ensures Immediate(attempt, old(ModeNow())).None? ==>
                && !retry && r == Rethrown(Inner(r))
                && Passes(Redirect(attempt).value, old(FieldsNow()), old(ViewNow()), script, Inner(r), rest, run[1..], FieldsNow())
      // the loop goes round again only after the handler accepted a query about this pass's exception
      ensures retry ==> Immediate(attempt, old(ModeNow())).Some? && |run| == 2 && run[1].RetryAsked? && run[1].answer
      ensures retry ==> NoRefusal(run) && cache.entries == old(cache.entries)
      ensures EndsInRefusal(run) ==> !retry && r.Raised?
      ensures !retry && r.Raised? ==> r.exn.Http? && r.exn.err.Categorized?
      ensures !retry && r.Raised? && r.exn.err.cause.None? ==>
                EndsInRefusal(run) && r.exn.err.category == Classify(run[|run| - 1].exn)
      ensures !retry && r.Raised? && r.exn.err.cause.Some? ==>
                r.exn.err.category == OtherException && !Retryable(r.exn.err.cause.value)
      ensures cache.entries == StoredAfter(old(cache.entries), cache.enabledMethods, requestUrl, requestMethod, isDownloadingFile, r)
    {
      ghost var c0 := retriedCount;
      var h;
      h, rest, run := Exchange(current, attempt, script);
      if !h.Raised? {
        return h, false, rest, run;
      }
      r, retry := Recover(h.exn);
      if !Retryable(h.exn) {
        return;
      }
      ghost var query := calls[|calls| - 1];
      ExtendDiscipline(run, query, c0, retriedCount - 1, retriedCount, retryHandler);
      run := run + [query];
    }

    /**
     * The try block of one pass after the cancellation check: the request is
     * executed, and what execute returns goes to handleResponse. `h` is what
     * the pass returns or throws, and `run` the calls it appends.
     */
    method Exchange(current: Request, attempt: Attempt, script: seq<Attempt>)
      returns (h: Outcome, rest: seq<Attempt>, ghost run: seq<EnvCall>)
      modifies this`retriedCount, this`requestMethod, this`isUploading, this`autoResume, this`calls, cache`entries
      decreases |script|, 4
      ensures |rest| <= |script|
      ensures autoResume ==> old(autoResume)
      ensures calls == old(calls) + run
      ensures |run| > 0 && run[0] == Executed(current)
      ensures Disciplined(run, old(retriedCount), retriedCount, retryHandler)
      ensures EndsInRefusal(run) ==> h.Raised? && !Retryable(h.exn)
      ensures h.Raised? && Retryable(h.exn) ==> run == [Executed(current)] && retriedCount == old(retriedCount)
      ensures Immediate(attempt, old(ModeNow())).Some? ==>
                && h == Immediate(attempt, old(ModeNow())).value && run == [Executed(current)] && rest == script
                && retriedCount == old(retriedCount) && FieldsNow() == AfterTransport(attempt, old(FieldsNow()))
      ensures Immediate(attempt, old(ModeNow())).None? ==>
                && !(h.Raised? && Retryable(h.exn))
                && Passes(Redirect(attempt).value, old(FieldsNow()), old(ViewNow()), script, h, rest, run[1..], FieldsNow())
      ensures h.Raised? ==> cache.entries == old(cache.entries)
      ensures cache.entries == StoredAfter(old(cache.entries), cache.enabledMethods, requestUrl, requestMethod, isDownloadingFile, h)
    {
      ghost var f, v := FieldsNow(), ViewNow();
      ghost var imm := Immediate(attempt, f.mode);
      calls := calls + [Executed(current)];
      ExtendDiscipline([], Executed(current), retriedCount, retriedCount, retriedCount, retryHandler);
      assert [] + [Executed(current)] == [Executed(current)];
      match attempt.transport {
        case Threw(e) =>
          return Raised(e), script, [Executed(current)];
        case Returned(response) =>
          assert imm == Handled(response, attempt.cancelledBeforeHandle, f.mode);
          ghost var midCount := retriedCount;
          ghost var handled;
          h, rest, handled := HandleResponse(response, attempt.cancelledBeforeHandle, script);
          DisciplineAppend([Executed(current)], handled, midCount, midCount, retriedCount, retryHandler);
          run := [Executed(current)] + handled;
          if imm.Some? {
            assert h == imm.value && handled == [] && rest == script;
          } else {
            assert run[1..] == handled;
            assert Passes(Redirect(attempt).value, f, v, script, h, rest, handled, FieldsNow());
          }
      }
    }

    /**
     * The catch clauses of sendRequest. An HttpException or a
     * RuntimeException is rethrown wrapped as OTHER_EXCEPTION and never
     * retried. Any other exception is classified, the retry counter is
     * incremented by one, and the retry handler is asked with the new count;
     * when it declines, an HttpException of that category is thrown.
     */
    method Recover(raised: Exn) returns (r: Outcome, retry: bool)
      modifies this`retriedCount, this`calls
      ensures r.Raised?
      ensures !Retryable(raised) ==>
                && !retry && calls == old(calls) && retriedCount == old(retriedCount)
                && r == Raised(Http(Categorized(OtherException, Some(raised))))
      ensures Retryable(raised) ==>
                && retriedCount == old(retriedCount) + 1
                && retry == retryHandler(raised, retriedCount)
                && calls == old(calls) + [RetryAsked(raised, retriedCount, retry)]
                && (!retry ==> r == Raised(Http(Categorized(Classify(raised), None))))
    {
      if !Retryable(raised) {
        return Raised(Http(Categorized(OtherException, Some(raised)))), false;
      }
      retriedCount := retriedCount + 1;
      retry := retryHandler(raised, retriedCount);
      calls := calls + [RetryAsked(raised, retriedCount, retry)];
      r := Raised(Http(Categorized(Classify(raised), None)));
    }

    /**
     * handleResponse: a null response is an error; a cancelled task returns
     * null; below 300 the entity is read (into the save file for a download,
     * else as text, which is cached under requestUrl when caching is enabled
     * for requestMethod); 301 and 302 re-enter sendRequest with the redirect
     * handler's request, or return null when it gives none; 416 and every
     * other status throw.
     */
    method HandleResponse(response: Option<Response>, cancelled: bool, script: seq<Attempt>)
      returns (r: Outcome, rest: seq<Attempt>, ghost run: seq<EnvCall>)
      modifies this`retriedCount, this`requestMethod, this`isUploading, this`autoResume, this`calls, cache`entries
      decreases |script|, 3
      ensures |rest| <= |script|
      ensures autoResume ==> old(autoResume)
      ensures calls == old(calls) + run
      ensures Disciplined(run, old(retriedCount), retriedCount, retryHandler)
      ensures EndsInRefusal(run) ==> r.Raised?
      ensures r.Raised? && Retryable(r.exn) ==> run == [] && retriedCount == old(retriedCount)
      ensures r.Raised? ==> cache.entries == old(cache.entries)
      ensures cache.entries == StoredAfter(old(cache.entries), cache.enabledMethods, requestUrl, requestMethod, isDownloadingFile, r)
      // without a followed redirect: what Handled gives, with the fields as AfterHandle leaves them
      ensures Handled(response, cancelled, old(ModeNow())).Some? ==>
                && r == Handled(response, cancelled, old(ModeNow())).value && run == [] && rest == script
                && FieldsNow() == AfterHandle(response, cancelled, old(FieldsNow()))
      // a followed redirect: the nested sendRequest's whole run
      ensures Handled(response, cancelled, old(ModeNow())).None? ==>
                && !(r.Raised? && Retryable(r.exn))
                && Passes(redirectHandler(response.value).value, old(FieldsNow()), old(ViewNow()), script, r, rest, run, FieldsNow())
      // a 2xx text body is stored under requestUrl when caching is enabled for the method
      ensures ReadsEntity(response, cancelled) && response.value.entity.value.Body? && !isDownloadingFile ==>
                cache.entries == if requestMethod in cache.enabledMethods
                                 then old(cache.entries)[requestUrl := response.value.entity.value.text]
                                 else old(cache.entries)
    {
      rest := script;
      run := [];
      if response.None? {
        return Raised(Http(Plain(NULL_RESPONSE_MESSAGE))), rest, run;
      }
      if cancelled {
        return Done(None), rest, run;
      }
      var resp := response.value;
      var code := resp.status;
      if code < 300 {
        var result: Option<Payload> := None;
        if resp.entity.Some? {
          isUploading := false;
          if isDownloadingFile {
            autoResume := autoResume && resp.supportsRange;
            var responseFileName := if autoRename then resp.fileName else None;
            match resp.entity.value {
              case ReadFault(e) =>
                return Raised(e), rest, run;
              case Body(_) =>
                result := Some(File(fileSavePath, autoResume, responseFileName));
            }
          } else {
            match resp.entity.value {
              case ReadFault(e) =>
                return Raised(e), rest, run;
              case Body(text) =>
                result := Some(Text(text));
                if cache.IsEnabled(requestMethod) {
                  cache.Put(requestUrl, text, expiry);
                }
            }
          }
        }
        return Done(Some(ResponseInfo(response, result, false))), rest, run;
      } else if code == 301 || code == 302 {
        var next := redirectHandler(resp);
        if next.Some? {
          r, rest, run := SendRequest(next.value, script);
          return;
        }
      } else if code == 416 {
        return Raised(Http(Status(code, RANGE_DONE_MESSAGE))), rest, run;
      } else {
        return Raised(Http(Status(code, resp.reason))), rest, run;
      }
      return Done(None), rest, run;
    }

    /**
     * doInBackground: nothing happens for a cancelled task or missing
     * parameters. Download parameters set the save path (String.valueOf, so
     * a null path becomes "null" and isDownloadingFile is always set), the
     * resume and rename flags. Then the request is recorded, START is
     * published, the clock is read, and sendRequest runs; a non-null result
     * is published as SUCCESS and an HttpException as FAILURE.
     */
    method DoInBackground(params: Params, now: int, script: seq<Attempt>)
      returns (sent: Option<Outcome>, ghost rest: seq<Attempt>, ghost run: seq<EnvCall>)
      modifies this`fileSavePath, this`isDownloadingFile, this`autoResume, this`autoRename, this`request,
               this`requestUrl, this`published, this`lastUpdateTime, this`throttleStart, this`unforcedTimes, this`emitted,
               this`retriedCount, this`requestMethod, this`isUploading, this`calls, cache`entries
      ensures old(state) == Cancelled || params.NoParams? ==>
                && sent == None && rest == [] && run == [] && published == old(published)
                && request == old(request) && fileSavePath == old(fileSavePath)
                && isDownloadingFile == old(isDownloadingFile) && autoResume == old(autoResume)
                && autoRename == old(autoRename) && requestUrl == old(requestUrl)
                && lastUpdateTime == old(lastUpdateTime) && retriedCount == old(retriedCount)
                && requestMethod == old(requestMethod) && isUploading == old(isUploading)
                && calls == old(calls) && cache.entries == old(cache.entries)
                && throttleStart == old(throttleStart) && unforcedTimes == old(unforcedTimes) && emitted == old(emitted)
      ensures old(state) != Cancelled && params.Params? ==>
                && sent.Some? && request == Some(params.request) && requestUrl == params.request.url
                && lastUpdateTime == now && throttleStart == now && unforcedTimes == [] && emitted == [] && Throttled()
                && published == old(published) + [StartEvent()] + Reported(sent.value)
                && calls == old(calls) + run
                && Disciplined(run, old(retriedCount), retriedCount, retryHandler)
                && (sent.value.Raised? ==> sent.value.exn.Http? && sent.value.exn.err.Categorized?)
      // what is published is what sendRequest gives on params.request from the state Prepare leaves
      ensures old(state) != Cancelled && params.Params? ==>
                Passes(params.request, EntryFields(params.download, old(FieldsNow())), EntryView(params.request, old(ViewNow())),
                       script, sent.value, rest, run, FieldsNow())
      // the cache key is the URL of doInBackground's own request, also after a redirect
      ensures old(state) != Cancelled && params.Params? ==>
                cache.entries == StoredAfter(old(cache.entries), cache.enabledMethods, params.request.url, requestMethod,
                                             isDownloadingFile, sent.value)
      // a cache hit on the first pass publishes START then SUCCESS from the cache
      ensures old(state) != Cancelled && params.Params? && script != []
              && params.request.verb in old(cache.enabledMethods) && params.request.url in old(cache.entries) ==>
                published == old(published) + [StartEvent(), SuccessEvent(ResponseInfo(None, Some(Text(old(cache.entries)[params.request.url])), true))]
      // a first pass that sees the task cancelled publishes START only
      ensures old(state) != Cancelled && params.Params? && script != [] && script[0].cancelledBeforeExecute
              && !(params.request.verb in old(cache.enabledMethods) && params.request.url in old(cache.entries)) ==>
                published == old(published) + [StartEvent()]
      ensures old(state) != Cancelled && params.Params? && params.download.Some? ==>
                && fileSavePath == Some(StringValueOf(params.download.value.savePath))
                && isDownloadingFile && autoRename == params.download.value.autoRename
                && (autoResume ==> params.download.value.autoResume)
      ensures old(state) != Cancelled && params.Params? && params.download.None? ==>
                && fileSavePath == old(fileSavePath) && isDownloadingFile == old(isDownloadingFile)
                && autoRename == old(autoRename) && (autoResume ==> old(autoResume))
    {
      if state == Cancelled || params.NoParams? {
        return None, [], [];
      }
      var r;
      r, rest, run := Launch(params.request, params.download, now, script);
      sent := Some(r);
    }

    /**
     * doInBackground past the cancellation guard: Prepare, then sendRequest
     * from the state Prepare leaves, then the event for its result.
     */
    method Launch(req: Request, download: Option<DownloadArgs>, now: int, script: seq<Attempt>)
      returns (r: Outcome, ghost rest: seq<Attempt>, ghost run: seq<EnvCall>)
      modifies this`fileSavePath, this`isDownloadingFile, this`autoResume, this`autoRename, this`request,
               this`requestUrl, this`published, this`lastUpdateTime, this`throttleStart, this`unforcedTimes, this`emitted,
               this`retriedCount, this`requestMethod, this`isUploading, this`calls, cache`entries
      ensures request == Some(req) && requestUrl == req.url
      ensures lastUpdateTime == now && throttleStart == now && unforcedTimes == [] && emitted == [] && Throttled()
      ensures published == old(published) + [StartEvent()] + Reported(r)
      ensures calls == old(calls) + run
      ensures Disciplined(run, old(retriedCount), retriedCount, retryHandler)
      ensures r.Raised? ==> r.exn.Http? && r.exn.err.Categorized?
      ensures Passes(req, EntryFields(download, old(FieldsNow())), EntryView(req, old(ViewNow())), script, r, rest, run, FieldsNow())
      // the cache key is the URL of doInBackground's own request, also after a redirect
      ensures cache.entries == StoredAfter(old(cache.entries), cache.enabledMethods, req.url, requestMethod, isDownloadingFile, r)
      ensures script != [] && req.verb in old(cache.enabledMethods) && req.url in old(cache.entries) ==>
                published == old(published) + [StartEvent(), SuccessEvent(ResponseInfo(None, Some(Text(old(cache.entries)[req.url])), true))]
      ensures script != [] && script[0].cancelledBeforeExecute
              && !(req.verb in old(cache.enabledMethods) && req.url in old(cache.entries)) ==>
                published == old(published) + [StartEvent()]
      ensures download.Some? ==>
                && fileSavePath == Some(StringValueOf(download.value.savePath))
                && isDownloadingFile && autoRename == download.value.autoRename
                && (autoResume ==> download.value.autoResume)
      ensures download.None? ==>
                && fileSavePath == old(fileSavePath) && isDownloadingFile == old(isDownloadingFile)
                && autoRename == old(autoRename) && (autoResume ==> old(autoResume))
    {
      ghost var f0 := EntryFields(download, FieldsNow());
      ghost var v0 := EntryView(req, ViewNow());
      Prepare(req, download, now);
      assert FieldsNow() == f0 && ViewNow() == v0;
      r, rest, run := Publish(req, script);
    }

    /** sendRequest, then the event doInBackground publishes for its result. */
    method Publish(req: Request, script: seq<Attempt>) returns (r: Outcome, ghost rest: seq<Attempt>, ghost run: seq<EnvCall>)
      modifies this`retriedCount, this`requestMethod, this`isUploading, this`autoResume, this`calls, cache`entries, this`published
      ensures published == old(published) + Reported(r)
      ensures autoResume ==> old(autoResume)
      ensures calls == old(calls) + run
      ensures Disciplined(run, old(retriedCount), retriedCount, retryHandler)
      ensures r.Raised? ==> r.exn.Http? && r.exn.err.Categorized?
      ensures Passes(req, old(FieldsNow()), old(ViewNow()), script, r, rest, run, FieldsNow())
      ensures script != [] && old(CacheHit(req.verb)) ==>
                Reported(r) == [SuccessEvent(ResponseInfo(None, Some(Text(old(cache.entries[requestUrl]))), true))]
      ensures script != [] && !old(CacheHit(req.verb)) && script[0].cancelledBeforeExecute ==> Reported(r) == []
      ensures cache.entries == StoredAfter(old(cache.entries), cache.enabledMethods, requestUrl, requestMethod, isDownloadingFile, r)
    {
      r, rest, run := SendRequest(req, script);
      // SUCCESS for a returned ResponseInfo, FAILURE for an HttpException, nothing otherwise
      published := published + Reported(r);
    }

    /**
     * The part of doInBackground before sendRequest: the download extras, the
     * request and its URL, the START event and the clock.
     */
    method Prepare(req: Request, download: Option<DownloadArgs>, now: int)
      modifies this`fileSavePath, this`isDownloadingFile, this`autoResume, this`autoRename, this`request,
               this`requestUrl, this`published, this`lastUpdateTime, this`throttleStart, this`unforcedTimes, this`emitted
      ensures download.Some? ==>
                && fileSavePath == Some(StringValueOf(download.value.savePath)) && isDownloadingFile
                && autoResume == download.value.autoResume && autoRename == download.value.autoRename
      ensures download.None? ==>
                && fileSavePath == old(fileSavePath) && isDownloadingFile == old(isDownloadingFile)
                && autoResume == old(autoResume) && autoRename == old(autoRename)
      ensures request == Some(req) && requestUrl == req.url && lastUpdateTime == now
      ensures published == old(published) + [StartEvent()]
      ensures throttleStart == now && unforcedTimes == [] && emitted == [] && Throttled()
    {
      if download.Some? {
        var d := download.value;
        fileSavePath := Some(StringValueOf(d.savePath));
        isDownloadingFile := fileSavePath.Some?;
        autoResume := d.autoResume;
        autoRename := d.autoRename;
      }
      request := Some(req);
      requestUrl := req.url;
      published := published + [StartEvent()];
      lastUpdateTime := now;
      throttleStart := now;
      unforcedTimes := [];
      emitted := [];
    }

    /**
     * onProgressUpdate: handles one published event on the observer side,
     * moving the state and calling the callback as Next and Notified say.
     */
    method OnProgressUpdate(ev: Event)
      modifies this`state, this`delivered
      ensures state == Next(old(state), hasCallback, ev)
      ensures delivered == old(delivered) + Notified(old(state), hasCallback, isUploading, ev)
    {
      if state == Cancelled || !hasCallback {
        return;
      }
      if ev.code == UPDATE_START {
        state := Started;
        delivered := delivered + [OnStart];
      } else if ev.code == UPDATE_LOADING {
        if |ev.args| + 1 != 3 {
          return;
        }
        state := Loading;
        if ev.args[0].Num? && ev.args[1].Num? {
          delivered := delivered + [OnLoading(ev.args[0].n, ev.args[1].n, isUploading)];
        }
      } else if ev.code == UPDATE_FAILURE {
        if |ev.args| + 1 != 3 {
          return;
        }
        state := Failure;
        if ev.args[0].Err? && ev.args[1].MessageOf? {
          delivered := delivered + [OnFailure(ev.args[0].err, ev.args[1].of)];
        }
      } else if ev.code == UPDATE_SUCCESS {
        if |ev.args| + 1 != 2 {
          return;
        }
        state := Success;
        if ev.args[0].Info? {
          delivered := delivered + [OnSuccess(ev.args[0].info)];
        }
      }
    }

    /**
     * updateProgress: with a callback and an uncancelled task, a forced
     * update always publishes a LOADING event, and an unforced one only when
     * `rate` ms have passed since the last unforced publication, which then
     * becomes `now`. The answer is whether the transfer should go on.
     */
    method UpdateProgress(total: int, current: int, force: bool, now: int) returns (proceed: bool)
      modifies this`published, this`lastUpdateTime, this`unforcedTimes, this`emitted
      ensures proceed <==> state != Cancelled
      ensures hasCallback && state != Cancelled && (force || Due(old(lastUpdateTime), rate, now)) ==>
                published == old(published) + [LoadingEvent(total, current)]
      ensures !(hasCallback && state != Cancelled && (force || Due(old(lastUpdateTime), rate, now))) ==>
                published == old(published)
      ensures lastUpdateTime == if hasCallback && state != Cancelled && !force && Due(old(lastUpdateTime), rate, now)
                                then now else old(lastUpdateTime)
      // an unforced update reads the clock, and the publications it makes are one more step of Emitted
      ensures unforcedTimes == old(unforcedTimes) + (if hasCallback && state != Cancelled && !force then [now] else [])
      ensures emitted == old(emitted) + (if hasCallback && state != Cancelled && !force && Due(old(lastUpdateTime), rate, now)
                                         then [now] else [])
      ensures old(Throttled()) ==> Throttled()
    {
      if hasCallback && state != Cancelled {
        if force {
          published := published + [LoadingEvent(total, current)];
        } else {
          EmittedSnoc(throttleStart, rate, unforcedTimes, now);
          unforcedTimes := unforcedTimes + [now];
          if now - lastUpdateTime >= rate {
            lastUpdateTime := now;
            published := published + [LoadingEvent(total, current)];
            emitted := emitted + [now];
          }
        }
      }
      proceed := state != Cancelled;
    }

    /**
     * cancel: the state becomes CANCELLED, the current request is aborted
     * unless it already was (`abortTakes` says whether abort() takes effect
     * or throws, which is swallowed), the task's own flag is set, and the
     * callback hears onCancelled on every call.
     */
    method Cancel(abortTakes: bool)
      modifies this`state, this`aborted, this`taskCancelled, this`delivered
      ensures state == Cancelled && taskCancelled
      ensures aborted == if request.Some? && request.value !in old(aborted) && abortTakes
                         then old(aborted) + {request.value} else old(aborted)
      ensures delivered == old(delivered) + (if hasCallback then [OnCancelled] else [])
    {
      state := Cancelled;
      if request.Some? && request.value !in aborted {
        if abortTakes {
          aborted := aborted + {request.value};
        }
      }
      if !taskCancelled {
        taskCancelled := true;
      }
      if hasCallback {
        delivered := delivered + [OnCancelled];
      }
    }
  }

  /**
   * The rate promise of updateProgress, of the handler itself: while the
   * throttle's bookkeeping holds, the unforced publications are clock
   * readings of unforced updates, the first comes at least `rate` after the
   * start, and each later one at least `rate` after the one before.
   */
  lemma ThrottledRespectsRate(h: HttpHandler)
    requires h.Throttled()
    ensures h.emitted != [] ==> h.emitted[0] - h.throttleStart >= h.rate
    ensures forall i :: 0 < i < |h.emitted| ==> h.emitted[i] - h.emitted[i - 1] >= h.rate
    ensures forall t :: t in h.emitted ==> t in h.unforcedTimes
  {
    EmittedRespectsRate(h.throttleStart, h.rate, h.unforcedTimes);
    EmittedFromTimes(h.throttleStart, h.rate, h.unforcedTimes);
  }

  /** cancel has no once-only guard: a second call notifies the callback a second time. */
  method CancelTwice(h: HttpHandler, abortTakes: bool)
    requires h.hasCallback
    modifies h`state, h`aborted, h`taskCancelled, h`delivered
    ensures h.state == Cancelled && h.delivered == old(h.delivered) + [OnCancelled, OnCancelled]
  {
    h.Cancel(abortTakes);
    h.Cancel(abortTakes);
  }

  /**
   * The fields sendRequest starts from once doInBackground has applied the
   * download parameters: the save path (String.valueOf, so always set),
   * the download flag, resume and rename; the rest as they were.
   */
  function EntryFields(download: Option<DownloadArgs>, f: Fields): (e: Fields)
    ensures e.uploading == f.uploading && e.verb == f.verb && e.count == f.count
    ensures download.None? ==> e == f
    ensures download.Some? ==>
              && e.mode.download && e.mode.savePath == Some(StringValueOf(download.value.savePath))
              && e.mode.resume == download.value.autoResume && e.mode.rename == download.value.autoRename
  {
    match download
    case None => f
    case Some(d) => f.(mode := Mode(true, Some(StringValueOf(d.savePath)), d.autoResume, d.autoRename))
  }

  /** The cache as sendRequest first sees it, once doInBackground has set requestUrl. */
  function EntryView(req: Request, v: CacheView): (w: CacheView)
    ensures w.url == req.url && w.enabled == v.enabled && w.entries == v.entries
  {
    v.(url := req.url)
  }

  /** The events doInBackground publishes after START for what sendRequest gave. */
  function Reported(o: Outcome): (evs: seq<Event>)
    ensures |evs| <= 1
    ensures o.Done? && o.info.Some? ==> evs == [SuccessEvent(o.info.value)]
    ensures o.Raised? && o.exn.Http? ==> evs == [FailureEvent(o.exn.err)]
    ensures !(o.Done? && o.info.Some?) && !(o.Raised? && o.exn.Http?) ==> evs == []
  {
    match o
    case Done(Some(info)) => [SuccessEvent(info)]
    case Raised(Http(e)) => [FailureEvent(e)]
    case _ => []
  }

  /**
   * Replayed on the observer side with a callback and no cancel, what one
   * doInBackground run publishes, interleaved with any loading samples,
   * leaves the task in SUCCESS exactly when sendRequest returned a result
   * and in FAILURE when it threw an HttpException.
   */
  lemma {:induction false} RunEndsInReportedState(s: State, ls: seq<(int, int)>, o: Outcome)
    requires s != Cancelled
    ensures var t := Replay(s, true, [StartEvent()] + LoadingEvents(ls) + Reported(o));
            && (t == Success <==> o.Done? && o.info.Some?)
            && (t == Failure <==> o.Raised? && o.exn.Http?)
            && (t == Started || t == Loading <==> !(o.Done? && o.info.Some?) && !(o.Raised? && o.exn.Http?))
  {
    match o {
      case Done(Some(info)) =>
        RunReachesOutcome(s, ls, SuccessEvent(info));
      case Raised(Http(e)) =>
        RunReachesOutcome(s, ls, FailureEvent(e));
      case _ =>
        assert Reported(o) == [];
        assert [StartEvent()] + LoadingEvents(ls) + [] == [StartEvent()] + LoadingEvents(ls);
        ReplayAppend(s, true, [StartEvent()], LoadingEvents(ls));
        LoadingKeepsRunning(Started, ls);
    }
  }
}

=== FILE: http_types.dfy ===
/**
 * Value types of the xUtils HTTP request engine: the task state, the failure
 * categories, the exceptions an attempt can raise, requests and responses, and
 * the text of the resume (Range) header.
 */
module HttpTypes {

  datatype Option<+T> = None | Some(value: T)

  /** HttpHandler.State; each constant carries the int the source gives it. */
  datatype State = Waiting | Started | Loading | Failure | Cancelled | Success

  /** State.value(): the int attached to each constant. */
  function StateValue(s: State): (v: int)
    ensures 0 <= v <= 5
  {
    match s
    case Waiting => 0
    case Started => 1
    case Loading => 2
    case Failure => 3
    case Cancelled => 4
    case Success => 5
  }

  /** State.valueOf(int): 0..5 name their constants, every other int is FAILURE. */
  function StateOf(v: int): (s: State)
    ensures 0 <= v <= 5 ==> StateValue(s) == v
    ensures !(0 <= v <= 5) ==> s == Failure
  {
    if v == 0 then Waiting
    else if v == 1 then Started
    else if v == 2 then Loading
    else if v == 3 then Failure
    else if v == 4 then Cancelled
    else if v == 5 then Success
    else Failure
  }

  /** valueOf undoes value() for every state. */
  lemma StateRoundTrip(s: State)
    ensures StateOf(StateValue(s)) == s
  {
  }

  /** HttpExceptionState: the failure category an HttpException carries. */
  datatype HttpExceptionState = IpConnectError | ConnectTimeOut | ReadDataError | OtherException

  /**
   * What a single attempt can raise, in the order sendRequest's catch clauses
   * test them (UnknownHostException, ConnectTimeoutException and
   * SocketTimeoutException are all IOExceptions and are caught before the
   * generic IOException clause).
   */
  datatype Exn =
    | UnknownHost                 // java.net.UnknownHostException
    | ConnectTimeout              // org.apache.http.conn.ConnectTimeoutException
    | SocketTimeout               // java.net.SocketTimeoutException
    | IOError                     // any other java.io.IOException
    | Http(err: HttpError)        // com.lidroid.xutils.exception.HttpException
    | Runtime                     // any java.lang.RuntimeException
    | OtherThrowable              // any other Throwable

  /**
   * The HttpException values the engine builds: one carrying a category (and,
   * when it wraps another exception, that cause), one carrying a status code
   * and text, and one carrying only a message.
   */
  datatype HttpError =
    | Categorized(category: HttpExceptionState, cause: Option<Exn>)
    | Status(code: int, reason: string)
    | Plain(message: string)

  /** The catch clauses of sendRequest that consult the retry handler. */
  predicate Retryable(e: Exn)
  {
    !(e.Http? || e.Runtime?)
  }

  /** The category each catch clause of sendRequest records. */
  function Classify(e: Exn): (c: HttpExceptionState)
    ensures c != ReadDataError
    ensures c == IpConnectError <==> e == UnknownHost || e == IOError
    ensures c == ConnectTimeOut <==> e == ConnectTimeout || e == SocketTimeout
    ensures c == OtherException <==> e.Http? || e == Runtime || e == OtherThrowable
  {
    match e
    case UnknownHost => IpConnectError
    case ConnectTimeout => ConnectTimeOut
    case SocketTimeout => ConnectTimeOut
    case IOError => IpConnectError
    case Http(_) => OtherException
    case Runtime => OtherException
    case OtherThrowable => OtherException
  }

  /** A request as the engine sees it: its method (here `verb`), URI and headers. */
  datatype Request = Request(verb: string, url: string, headers: map<string, string>)

  /** What reading a response entity yields: the body, or the exception the reader raised. */
  datatype EntityRead = Body(text: string) | ReadFault(exn: Exn)

  /**
   * A response from the transport. `entity` is None when the response has no
   * entity; `supportsRange` and `fileName` are what OtherUtils.isSupportRange and
   * OtherUtils.getFileNameFromHttpResponse report for it.
   */
  datatype Response = Response(
    status: int,
    reason: string,
    entity: Option<EntityRead>,
    supportsRange: bool,
    fileName: Option<string>)

  /** The typed result a ResponseInfo carries: response text, or the downloaded file. */
  datatype Payload =
    | Text(text: string)
    | File(savePath: Option<string>, resumed: bool, fileName: Option<string>)

  /** ResponseInfo: the response (absent when served from the cache), the result, and fromCache. */
  datatype ResponseInfo = ResponseInfo(response: Option<Response>, result: Option<Payload>, fromCache: bool)

  /** How handleResponse routes a status code. */
  datatype Route = ToSuccess | ToRedirect | RangeComplete | StatusError

  /** The branch handleResponse takes for a status code. */
  function Dispatch(code: int): (r: Route)
    ensures r == ToSuccess <==> code < 300
    ensures r == ToRedirect <==> code == 301 || code == 302
    ensures r == RangeComplete <==> code == 416
    ensures r == StatusError <==> code >= 300 && code != 301 && code != 302 && code != 416
  {
    if code < 300 then ToSuccess
    else if code == 301 || code == 302 then ToRedirect
    else if code == 416 then RangeComplete
    else StatusError
  }

  // ---------------------------------------------------------------------------
  // The resume header: RANGE: bytes=L-

  const RANGE_HEADER: string := "RANGE"

  predicate IsDigit(c: char)
  {
    '0' <= c <= '9'
  }

  predicate AllDigits(s: string)
  {
    forall i :: 0 <= i < |s| ==> IsDigit(s[i])
  }

  function DigitChar(d: nat): (c: char)
    requires d < 10
    ensures IsDigit(c) && c as int - '0' as int == d
  {
    ('0' as int + d) as char
  }

  /** The decimal text Java's string concatenation gives a non-negative long. */
  function DecimalString(n: nat): (s: string)
    ensures |s| >= 1 && AllDigits(s)
  {
    if n < 10 then [DigitChar(n)] else DecimalString(n / 10) + [DigitChar(n % 10)]
  }

  /** The number a non-empty run of decimal digits denotes. */
  function DecimalValue(s: string): (n: nat)
    requires AllDigits(s)
  {
    if |s| == 0 then 0
    else DecimalValue(s[..|s| - 1]) * 10 + (s[|s| - 1] as int - '0' as int)
  }

  lemma {:induction false} DecimalRoundTrip(n: nat)
    ensures DecimalValue(DecimalString(n)) == n
  {
    var s := DecimalString(n);
    if n >= 10 {
      DecimalRoundTrip(n / 10);
      assert s[..|s| - 1] == DecimalString(n / 10);
    }
  }

  /** The value of the RANGE header asking for the bytes from `from` on. */
  function RangeHeaderValue(from: nat): string
  {
    "bytes=" + DecimalString(from) + "-"
  }

  /** Reads back the start offset of a "bytes=L-" header value. */
  function ParseRangeHeader(v: string): Option<nat>
  {
    if |v| >= 8 && v[..6] == "bytes=" && v[|v| - 1] == '-' && AllDigits(v[6..|v| - 1])
    then Some(DecimalValue(v[6..|v| - 1]))
    else None
  }

  /** The header text the engine writes names exactly the offset it was built from. */
  lemma RangeHeaderRoundTrip(from: nat)
    ensures ParseRangeHeader(RangeHeaderValue(from)) == Some(from)
  {
    var v := RangeHeaderValue(from);
    var d := DecimalString(from);
    assert v[..6] == "bytes=";
    assert v[6..|v| - 1] == d;
    DecimalRoundTrip(from);
  }

  /**
   * The header step at the top of each pass of sendRequest's loop: with
   * autoResume on, a file download under way and a partial file of length
   * fileLen > 0, the RANGE header is (re)set to "bytes=fileLen-"; otherwise
   * the request is left as it is.
   */
  function WithResume(req: Request, autoResume: bool, downloading: bool, fileLen: int): (r: Request)
    ensures r.verb == req.verb && r.url == req.url
    ensures autoResume && downloading && fileLen > 0 ==>
              RANGE_HEADER in r.headers && ParseRangeHeader(r.headers[RANGE_HEADER]) == Some(fileLen)
    ensures !(autoResume && downloading && fileLen > 0) ==> r == req
  {
    if autoResume && downloading && fileLen > 0 then
      RangeHeaderRoundTrip(fileLen);
      req.(headers := req.headers[RANGE_HEADER := RangeHeaderValue(fileLen)])
    else
      req
  }

  /** Setting the resume header leaves every other header as it was. */
  lemma WithResumeKeepsOtherHeaders(req: Request, autoResume: bool, downloading: bool, fileLen: int, h: string)
    requires h != RANGE_HEADER
    ensures var r := WithResume(req, autoResume, downloading, fileLen);
            (h in r.headers <==> h in req.headers) && (h in r.headers ==> r.headers[h] == req.headers[h])
  {
  }
}
